=== FILE: README.md ===
# Distributed queue and cache node, modelled in Dafny

Every node of this system runs three services:

- a **sharded message queue**, whose lists live in Redis. A consistent-hash ring decides which node owns each queue. A node that does not own a queue forwards the request over HTTP to the owner.
- a **read-through cache** in front of a mock database. It uses `functools.lru_cache` with 128 entries. A write clears the local cache and sends invalidations to the peers.
- **counters** for cache hits and misses.

The model covers:

- the consistent-hash ring (`ConsistentHasher`);
- the node's `Settings`, derived from its environment;
- the queue handlers `produce`, `consume` and `acknowledge`, with their routing and forwarding decisions;
- the cache routes;
- the metrics counters.

Everything is immutable data and pure functions. Each handler takes the state it reads and returns the state it leaves.

| module (file) | what it models |
|---|---|
| `Wrappers` (wrappers.dfy) | `Option` and `Result` |
| `Seqs` (seqs.dfy) | removing every copy of a value, reversal, ascending order |
| `Strings` (strings.dfy) | the Python `str` operations used: `isspace`/`strip`, `split` on one character, `in`, `split(sep)[0]`, `str(int)`, `int(str)` |
| `Hashing` (hashing.dfy) | `ConsistentHasher`: the ring, `add_node`, `get_node`, and `bisect.bisect` as a binary search |
| `Config` (config.dfy) | `Settings()` as a function of the environment map |
| `RedisLists` (redis_lists.dfy) | Redis lists with `LPUSH`, `RPOPLPUSH` and `LREM key 0 value` |
| `QueueNode` (queue_node.dfy) | start-up, node-id parsing, the ring over the node ids, `forward_request`, `produce`, `consume`, `acknowledge` |
| `Metrics` (metrics.dfy) | `CacheMetrics` |
| `CacheNode` (cache_node.dfy) | the mock database, the LRU cache with its statistics, `read_cache`, `write_cache`, `invalidate_cache`, `get_metrics` |

Several things outside the program are passed in as parameters rather than modelled:

- **MD5.** The ring's hash (`int(md5(key).hexdigest(), 16)`) is the parameter `h: string -> nat`. Every property holds for every hash function.
- **The Redis connection.** Its state is the `connected` flag of a node. `fault` stands for a Redis command that raises.
- **The HTTP transport.** The httpx request inside `forward_request`, with its `.json()`, is the parameter `net`: what the upstream answered for a URL, a non-JSON body, or a transport error. `QueueNode.Forward` models the rest of `forward_request`.
- **The environment.** It is a map from variable names to values.

## Model

| member | source | states |
|---|---|---|
| `Strings.TrimLeft` | src/utils/config.py:11 | the result is a suffix of the input; everything cut off is whitespace; the result is empty or starts with a non-space |
| `Strings.TrimRight` | src/utils/config.py:11 | the result is a prefix of the input; everything cut off is whitespace; the result is empty or ends with a non-space |
| `Strings.StripSlice` | src/utils/config.py:11 | `strip()` returns one contiguous slice of its input, with only whitespace cut from either side |
| `Strings.StripStripped` | src/utils/config.py:11 | a stripped string has no whitespace at either end |
| `Strings.StripKeeps` | src/utils/config.py:11 | every character of `s.strip()` occurs in `s` |
| `Strings.StripNoEdges` | src/utils/config.py:11 | text without whitespace at its ends is left unchanged by `strip()` |
| `Strings.StripIdempotent` | src/utils/config.py:11 | stripping twice is stripping once |
| `Strings.Split` | src/utils/config.py:11 | `split(sep)` yields one piece more than there are separators; no piece holds the separator; joining the pieces with it gives the input back |
| `Strings.SplitJoin` | src/utils/config.py:11 | splitting pieces joined by a separator they do not contain gives back exactly those pieces |
| `Strings.ContainsIff` | src/nodes/queue_node.py:35 | Python's `sub in s` holds exactly when `sub` occurs at some position of `s` |
| `Strings.Find` | src/nodes/queue_node.py:28 | the leftmost occurrence of the pattern, or none when it occurs nowhere |
| `Strings.BeforeFirst` | src/nodes/queue_node.py:28 | `s.split(pat)[0]` is a prefix of `s` with no occurrence of `pat` inside it, followed by `pat` unless it is all of `s` |
| `Strings.BeforeFirstChar` | src/nodes/queue_node.py:28 | `s.split(c)[0]` never holds `c` |
| `Strings.NatToString` | src/utils/config.py:13 | `str(n)` is a non-empty string of digits without a leading zero, and its decimal value is `n` |
| `Strings.IntToString` | src/utils/config.py:13 | `str(i)` of a negative number is a minus sign followed by digits; otherwise it is digits only |
| `Strings.ParseSigned` | src/utils/config.py:7 | an optional sign and one to 4300 ASCII digits is read as its decimal value, negated after `-`; any other text is rejected |
| `Strings.IntTrimLeft` | src/utils/config.py:7 | `int()` skips leading whitespace, but not the separators 0x1C-0x1F: the result is a suffix, everything cut is such whitespace, and it starts with something else |
| `Strings.IntTrimRight` | src/utils/config.py:7 | the same at the end of the text |
| `Strings.ParseInt` | src/utils/config.py:7 | `int(s)` succeeds exactly when the text, trimmed of the whitespace `int()` skips, is a sign and at most 4300 digits |
| `Strings.ParseIntIgnoresPadding` | src/utils/config.py:7 | `int()` of a text padded with whitespace it skips gives the integer of the unpadded text (its sign and digits read by `ParseSigned`), or fails as that text does |
| `Strings.ParseIntRejectsSeparator` | src/utils/config.py:7 | text that starts with a separator 0x1C-0x1F is not a number, although `strip()` counts that character as whitespace |
| `Strings.IntTrimKeepsHead` | src/utils/config.py:7 | trimming keeps a first character that `int()` does not skip |
| `Strings.ParseIntToString` | src/utils/config.py:7 | `int(str(i)) == i` for every integer of at most 4300 digits |
| `Seqs.RemoveAll` | src/utils/config.py:16 | the filtered list no longer holds the value; every other value keeps its number of occurrences; membership is "in the list and not the value" |
| `Seqs.RemoveAllAppend` | src/nodes/queue_node.py:133 | removal distributes over concatenation, so the survivors keep their order |
| `Seqs.SortedUnique` | src/utils/hashing.py:23 | two ascending lists with the same elements are equal, so the sorted key list is determined by its contents |
| `Hashing.ReplicaKeyAt` | src/utils/hashing.py:19-20 | the `i`-th point a node adds is the hash of `"{node}:{i}"` |
| `Hashing.Place` | src/utils/hashing.py:21 | each new point maps to the node; every other point keeps its owner; the ring gains exactly the new points |
| `Hashing.Insert` | src/utils/hashing.py:22-23 | inserting into an ascending list keeps it ascending and adds exactly one element |
| `Hashing.Sort` | src/utils/hashing.py:23 | `sort()` yields an ascending permutation of its input |
| `Hashing.AddNode` | src/utils/hashing.py:17-23 | `add_node` grows the key list by exactly `replicas` points and keeps it sorted and in step with the ring; the new points belong to the node; the other points keep their owners |
| `Hashing.AddNodeOwnsLabels` | src/utils/hashing.py:19-21 | after `add_node(n)`, the hash of `"{n}:{i}"` is owned by `n` for every `i` below `replicas` |
| `Hashing.LaterNodeOverwrites` | src/utils/hashing.py:21 | when two labels collide, the node added later owns the point |
| `Hashing.NewValid` | src/utils/hashing.py:9-15 | a ring built from a node list has its keys ascending and exactly the ring's points |
| `Hashing.NewSize` | src/utils/hashing.py:9-22 | the key list holds `replicas` points per listed node, repeats included |
| `Hashing.NewOwnersAreNodes` | src/utils/hashing.py:9-15 | every point is owned by a listed node |
| `Hashing.NewEmptyIff` | src/utils/hashing.py:13-15 | the ring is empty exactly when no node was given or `replicas` is not positive |
| `Hashing.FirstAbove` | src/utils/hashing.py:35 | `bisect_right`: every key before the index is at most the target, and the key at the index is above it |
| `Hashing.FirstAboveUnique` | src/utils/hashing.py:35 | any index that splits the list into "at most the target" and "above the target" is the bisection index |
| `Hashing.Bisect` | src/utils/hashing.py:35 | the binary search returns the bisection index on a sorted list |
| `Hashing.GetNode` | src/utils/hashing.py:25-40 | `get_node` answers `None` exactly when the ring is empty, and otherwise a node on the ring |
| `Hashing.OwnerAbove` | src/utils/hashing.py:32-40 | the owner is the node at the smallest point strictly above the key's hash |
| `Hashing.OwnerWrapsAround` | src/utils/hashing.py:37-40 | a hash at or above every point goes to the smallest point |
| `Hashing.OwnerIsAddedNode` | src/utils/hashing.py:9-40 | with at least one node and a positive replica count, every key has an owner, and the owner is one of the listed nodes |
| `Config.StripAll` | src/utils/config.py:11 | each piece is stripped, in order |
| `Config.SplitNodes` | src/utils/config.py:10-11 | the node list has one entry per comma-separated piece, and entry `i` is piece `i` stripped, in order; no entry holds a comma or has whitespace at either end |
| `Config.SplitNodesJoin` | src/utils/config.py:11 | stripped addresses written comma-separated are read back exactly, in order and with repeats |
| `Config.Derive` | src/utils/config.py:11-16 | `self_url` is built from the id and the port; the peers are the node list with every copy of `self_url` filtered out, the others keeping their order (with `Seqs.RemoveAll` and `Seqs.RemoveAllAppend`); `self_url` is never a peer |
| `Config.PeersKeepRepeats` | src/utils/config.py:16 | a node other than this one occurs among the peers as often as in the node list |
| `Config.Load` | src/utils/config.py:6-19 | `Settings()` fails exactly when `int()` rejects `PORT` or `REDIS_PORT` (with the whitespace and 4300-digit rules of `Strings.ParseInt`), `PORT` being checked first; otherwise it derives the settings from the variables or their defaults |
| `Config.LocalUrlIsOneNode` | src/utils/config.py:10-11 | the default node list is the single localhost URL |
| `Config.DefaultNodeList` | src/utils/config.py:10-11 | without `ALL_NODES`, the node list is this node's localhost URL alone |
| `Config.DefaultPortsParse` | src/utils/config.py:7-19 | the default texts "8000" and "6379" read as 8000 and 6379 |
| `Config.DefaultUrls` | src/utils/config.py:10-13 | the default URLs are `http://localhost:8000` and `http://default_node:8000` |
| `Config.LoadEmpty` | src/utils/config.py:6-19 | an empty environment gives the default port, node id and Redis address |
| `Config.Defaults` | src/utils/config.py:6-19 | with an empty environment, the node list and the peers are both the single localhost URL |
| `RedisLists.Put` | src/nodes/queue_node.py:79 | storing a list changes only that name, and an empty list is dropped as Redis drops it |
| `RedisLists.LPush` | src/nodes/queue_node.py:79 | `LPUSH` puts the value at the head; no other list changes |
| `RedisLists.RPopLPush` | src/nodes/queue_node.py:106 | `RPOPLPUSH` returns nothing exactly when the source is empty, and then changes nothing; otherwise it returns the source's tail; lists other than the two named are untouched |
| `RedisLists.RPopLPushMoves` | src/nodes/queue_node.py:105-106 | between two lists, the tail moves to the head of the destination; the two lists together keep their elements |
| `RedisLists.LRem` | src/nodes/queue_node.py:133 | `LREM name 0 v` removes every `v` from that list and touches no other |
| `RedisLists.LPushAllOrder` | src/nodes/queue_node.py:79 | values pushed one by one sit newest first, in front of the old contents |
| `RedisLists.DrainPopsTails` | src/nodes/queue_node.py:106 | repeated `RPOPLPUSH` into another list returns the source's elements from the tail |
| `RedisLists.Fifo` | src/nodes/queue_node.py:79-106 | messages pushed onto an empty queue come out of `RPOPLPUSH` in the order they were pushed |
| `QueueNode.ParseNodeId` | src/nodes/queue_node.py:28 | a URL without `//` has no id (the comprehension raises); otherwise the id is the host part of the text after the first `//`: a prefix of it with no `:` and no `//`, followed by `:`, `//` or the end of that text |
| `QueueNode.HostIdUnique` | src/nodes/queue_node.py:28 | that description fixes the id: at most one prefix of a text is its host part |
| `QueueNode.SplitsGiveHostId` | src/nodes/queue_node.py:28 | `split('//')[0].split(':')[0]` yields the host part of the text |
| `QueueNode.ParseSelfUrl` | src/nodes/queue_node.py:28 | the id parsed from a URL `http://{id}:{port}` is `id`, when `id` has no `:` and no `/` |
| `QueueNode.NodeIds` | src/nodes/queue_node.py:28 | the ids of all configured URLs, position by position; none when some URL has no `//` |
| `QueueNode.StartNode` | src/nodes/queue_node.py:13-29 | a node starts exactly when every URL parses; its ring is built over the parsed ids with 5 replicas |
| `QueueNode.OwnerIsConfiguredNode` | src/nodes/queue_node.py:28-29 | on a started node, every queue's owner is the id of some configured URL |
| `QueueNode.ForwardTarget` | src/nodes/queue_node.py:35 | the forward target is the first configured URL containing the owner id as a substring, or none |
| `QueueNode.ForwardTargetExact` | src/nodes/queue_node.py:35 | the intended target is a configured URL whose parsed id is exactly the owner, or none when there is no such URL |
| `QueueNode.PrefixIdMisroutes` | src/nodes/queue_node.py:35 | a request for `a` goes to `b`'s URL when `b` has `a` as a prefix and is listed first; the exact match picks `a`'s URL |
| `QueueNode.SubstringTargetMisroutes` | src/nodes/queue_node.py:35 | with `node10` listed before `node1`, a request for `node1` is sent to `http://node10:8000` |
| `QueueNode.TargetsAgree` | src/nodes/queue_node.py:35 | where "contains the id" and "parses to the id" coincide for every URL, the two lookups agree |
| `QueueNode.ProcessingList` | src/nodes/queue_node.py:105 | the processing list of a queue is a different list, named by extending the queue's name |
| `QueueNode.Forward` | src/nodes/queue_node.py:32-54 | no owner, no URL for it, or an empty URL gives a 500; a relayed reply is what the upstream answered for `target + path`; every error is a 500 or a 503 |
| `QueueNode.ForwardRelays` | src/nodes/queue_node.py:39-54 | an upstream answer is relayed with its status; a non-JSON body gives a 500; a transport error gives a 503 |
| `QueueNode.Produce` | src/nodes/queue_node.py:58-82 | without Redis the answer is a 503; a message is stored exactly when this node owns the queue and Redis does not fail, and then it is `LPUSH`ed onto the queue and the reply echoes it; otherwise the store is unchanged; a Redis failure on the owner is a 500 |
| `QueueNode.Consume` | src/nodes/queue_node.py:84-120 | without Redis the answer is a 503; a consumed reply carries this node and the processing list as ack token, with a non-empty message; every error is a 500 or a 503; a Redis failure on the owner is a 500 with the queue untouched |
| `QueueNode.ConsumeIntended` | src/nodes/queue_node.py:100-120 | the same handler with the 404 for an empty queue reaching the client; a Redis failure on the owner is still a 500 with the queue untouched |
| `QueueNode.Acknowledge` | src/nodes/queue_node.py:122-136 | the acknowledgement succeeds exactly when Redis is up and does not fail; it then leaves the store `LREM processing_list 0 message` produces; a Redis failure is a 500 with the store unchanged |
| `QueueNode.NoRedisIs503` | src/nodes/queue_node.py:64-91 | without Redis, produce and consume both answer 503 and change nothing |
| `QueueNode.ProduceOnOwner` | src/nodes/queue_node.py:76-80 | on the owner, produce pushes the message onto the head of the queue, echoes it, and changes no other list |
| `QueueNode.ConsumeOnOwner` | src/nodes/queue_node.py:100-116 | on the owner, consume moves the oldest message to the head of the processing list and hands it out (a 500 when it is the empty string); the two lists keep their elements between them, and no other list changes |
| `QueueNode.ConsumeEmptyQueue` | src/nodes/queue_node.py:117-120 | as written, an empty queue answers 500, where the intended handler answers 404; the store is unchanged |
| `QueueNode.ConsumeVersionsAgree` | src/nodes/queue_node.py:100-120 | the written and the intended consume leave the same store and differ only by a 500 where a 404 was meant |
| `QueueNode.AcknowledgeRemovesAll` | src/nodes/queue_node.py:130-134 | an acknowledgement removes every copy of the message from the named list, leaving the other entries in their order (`Seqs.RemoveAllAppend`), and touches no other list, even when nothing matched |
| `QueueNode.ForwardedLeavesStore` | src/nodes/queue_node.py:67-74 | a request for a queue this node does not own is forwarded, and the local store is unchanged |
| `QueueNode.TwoMessagesFifo` | src/nodes/queue_node.py:76-116 | two messages produced on an empty queue are consumed in the order they were produced |
| `QueueNode.RoundTripRestores` | src/nodes/queue_node.py:76-134 | producing, consuming and acknowledging one message on an empty queue leaves every list as it was |
| `QueueNode.LocalUrlId` | src/nodes/queue_node.py:28 | a localhost URL parses to the id "localhost" |
| `QueueNode.LocalUrlTarget` | src/nodes/queue_node.py:35 | with the single localhost URL configured, a request for "localhost" goes to that URL |
| `QueueNode.LocalNodeStarts` | src/nodes/queue_node.py:26-29 | a node configured with its localhost URL alone builds a ring holding "localhost" only, which owns every queue |
| `QueueNode.DefaultConfigForwardsToItself` | src/nodes/queue_node.py:67-74 | with an empty environment and Redis reachable, the node calls itself "default_node" but the ring knows only "localhost", so every produce and consume is forwarded to its own URL |
| `Metrics.Fresh` | src/utils/metrics.py:5-7 | a new instance starts with both counters at zero |
| `Metrics.Hit` | src/utils/metrics.py:9-10 | `hit()` adds one hit and leaves the misses as they were |
| `Metrics.Miss` | src/utils/metrics.py:12-13 | `miss()` adds one miss and leaves the hits as they were |
| `Metrics.GetStats` | src/utils/metrics.py:15-16 | `get_stats()` holds exactly the two counters, under `cache_hits` and `cache_misses` |
| `Metrics.StatsDetermineCounters` | src/utils/metrics.py:15-16 | the counters can be recovered from `get_stats()` |
| `Metrics.ReplayCounts` | src/utils/metrics.py:9-13 | after any sequence of calls, hits went up by the number of `hit()` calls and misses by the number of `miss()` calls |
| `Metrics.CountersNeverDecrease` | src/utils/metrics.py:5-13 | neither counter ever goes down |
| `Metrics.ReplayAppend` | src/utils/metrics.py:9-13 | replaying two sequences of calls one after the other is replaying their concatenation |
| `CacheNode.Start` | src/nodes/cache_node.py:9-12 | the module starts with the seeded database, an empty cache and fresh metrics |
| `CacheNode.SeededItems` | src/nodes/cache_node.py:9-12 | at start-up, `item:123` reads back as stored, and a key never stored is a 404 |
| `CacheNode.CachedIff` | src/nodes/cache_node.py:16 | a call is a cache hit exactly when some cached entry is for that key |
| `CacheNode.MoveToEnd` | src/nodes/cache_node.py:16 | a hit makes its entry the most recently used one and keeps the same entries |
| `CacheNode.MoveToEndUnique` | src/nodes/cache_node.py:16 | a hit keeps each key cached at most once |
| `CacheNode.CallCached` | src/nodes/cache_node.py:16-25 | a hit returns the cached result, counts a cache hit and records no metrics miss; a miss reads the database, counts a cache miss and records one metrics miss; either way, the key is cached afterwards, `None` included |
| `CacheNode.CallKeepsValid` | src/nodes/cache_node.py:16 | the cache never holds more than 128 entries or two entries for one key |
| `CacheNode.CallIsTransparent` | src/nodes/cache_node.py:16-25 | with a coherent cache, a call returns what the database holds, and the cache stays coherent |
| `CacheNode.ReadReply` | src/nodes/cache_node.py:42-45 | a read returns the value exactly when it is truthy, otherwise a 404 |
| `CacheNode.ReadCache` | src/nodes/cache_node.py:30-45 | `read_cache` records one metrics miss exactly when the key was not cached, and records a hit whenever the cache's cumulative hit count is positive afterwards; the cache it leaves is the one the `lru_cache` call leaves, so a read of a cached key always records a hit; the database is untouched |
| `CacheNode.ReadCacheIntended` | src/nodes/cache_node.py:37-40 | the intended read records one hit for a read served from the cache, and one miss otherwise; the cache it leaves is the one the `lru_cache` call leaves |
| `CacheNode.WriteCache` | src/nodes/cache_node.py:47-63 | `write_cache` stores the body's `data`, or `None` without it; it changes no other key, empties the whole cache and resets its statistics, schedules exactly one broadcast (for that key), and echoes the stored value |
| `CacheNode.InvalidateCache` | src/nodes/cache_node.py:65-74 | `invalidate_cache` empties the whole cache and resets its statistics; the database and the metrics are unchanged; it answers with the key |
| `CacheNode.GetMetrics` | src/nodes/cache_node.py:76-83 | `get_metrics` reports the two counters, plus the cache's hits, misses, `maxsize=128` and current size, and changes nothing |
| `CacheNode.MetricsBounds` | src/nodes/cache_node.py:76-83 | in a reachable state, the reported size is at most `maxsize`, and each counter is at least the cache's own statistic |
| `CacheNode.StepKeepsInv` | src/nodes/cache_node.py:16-74 | every route keeps the cache valid and coherent with the database, and keeps the counters no lower than the cache's statistics |
| `CacheNode.RunKeepsInv` | src/nodes/cache_node.py:16-74 | the invariant holds after any sequence of requests |
| `CacheNode.Reachable` | src/nodes/cache_node.py:9-74 | every state reachable from start-up satisfies the invariant |
| `CacheNode.RunCountersNeverDecrease` | src/nodes/cache_node.py:22-40 | over any sequence of requests, neither metrics counter goes down |
| `CacheNode.IntendedCountsReads` | src/nodes/cache_node.py:35-40 | with the intended reads, the two counters together go up by exactly the number of reads |
| `CacheNode.MissAfterHitCountsTwice` | src/nodes/cache_node.py:37-40 | as written, a miss after an earlier hit since the last clear is recorded as both a miss and a hit |
| `CacheNode.SecondReadHits` | src/nodes/cache_node.py:35-40 | reading one key twice into an empty cache makes the cache's hit count positive while other keys stay uncached |
| `CacheNode.ReadYourWrite` | src/nodes/cache_node.py:54-57 | a read right after a write returns the written value when it is truthy and a 404 otherwise, recording one miss |
| `CacheNode.ReadIsTransparent` | src/nodes/cache_node.py:35-45 | in a reachable state, a read answers what the database holds: the cache never changes an answer |
| `CacheNode.RepeatedReadHits` | src/nodes/cache_node.py:16-25 | a second read of the same key is a hit: it records no miss, and one more hit |
| `CacheNode.InvalidateThenMiss` | src/nodes/cache_node.py:73 | after an invalidation, the next read of any key misses |

Two points of the code are easy to misread:

- The ring's successor is strictly above the key's hash, not at or above it: src/utils/hashing.py:35 calls `bisect.bisect`, which is `bisect_right`.
- Consuming from an empty queue answers 500. src/nodes/queue_node.py:118 raises a 404, but it does so inside the `try`, and the `except Exception` at line 119 turns it into the 500 raised at line 120 (see Findings).

## Left out

- src/main.py (the application wiring) and src/communication/message_passing.py (the background broadcast to the peers) are not part of this model. `WriteCache` returns the keys it hands to the broadcast, and nothing more.
- MD5 is a parameter. No digest is computed, and the ring's properties hold for every hash function.
- Redis connect and `ping` at start-up are the `connected` flag. A failing Redis command is the `fault` flag, and the error message text is not modelled.
- The httpx transport is the `net` parameter. Headers, methods, request bodies and URL encoding of the queue name are not modelled; the forwarded path is `/queue/{name}`.
- Messages are opaque strings. The `str(dict)` / `eval` round trip and the `detail` texts of the errors are not modelled.
- `int()` accepts only ASCII digits with an optional sign. Python also accepts `_` separators and other Unicode digits. The 4300-digit limit is the default; changing it with `sys.set_int_max_str_digits` is not modelled.
- `Strings.IntToString`: `str()` also refuses integers of more than 4300 digits. The model spells them, and only ever spells ports that `int()` has already accepted.
- `get_settings()` is cached once per process. `Load` is simply a function of the environment.
- Concurrency is not modelled. The model does not cover interleaved async handlers, the thread pool behind sync handlers, or `lru_cache`'s locking.
- JSON numbers are exact reals; float rounding is not modelled. Python's `json` also accepts `NaN`, `Infinity` and `-Infinity` in a request body; `JNum` cannot hold them, so writing them is not modelled (Python treats them as truthy, and the JSON response could not encode them).
- The `cache_info` entry of `/metrics` is a string in the source. The model keeps its four fields as a record and does not render the text.
- `print` logging is left out.
- `Strings.IntToString`: states the shape of the result (sign and digits). That it reads back as the number is the separate lemma `Strings.ParseIntToString`.
- `Hashing.GetNode`: states only that the owner is some node on the ring. Which node it is follows from `Hashing.OwnerAbove` and `Hashing.OwnerWrapsAround`.

## Findings

| source | as written | input that shows it | evidently intended | confidence | as-written member | corrected member |
|---|---|---|---|---|---|---|
| src/nodes/queue_node.py:35 | the forward target is the first configured URL that contains the owner's id anywhere in it | `ALL_NODES=http://node10:8000,http://node1:8000`: a request owned by `node1` is sent to `http://node10:8000` | the URL whose parsed node id equals the owner, as in line 28 | not executed; high | `QueueNode.SubstringTargetMisroutes` | `QueueNode.ForwardTargetExact` |
| src/nodes/queue_node.py:117-120 | the 404 for an empty queue is raised inside the `try`, and `except Exception` turns it into a 500 | a `GET /queue/q` on the owner of an empty queue `q` answers 500 | 404 "Queue is empty or does not exist" | not executed; high | `QueueNode.ConsumeEmptyQueue` | `QueueNode.ConsumeIntended` |
| src/nodes/cache_node.py:39-40 | a hit is recorded whenever the cache's cumulative hit count is positive | read `a`, read `a` (a hit), then read `b`: that miss is recorded as a miss and as a hit | record a hit only for a read served from the cache | not executed; high | `CacheNode.MissAfterHitCountsTwice` | `CacheNode.ReadCacheIntended` |

The as-written versions remain the model of the running system: `QueueNode.Forward` uses `QueueNode.ForwardTarget`, `QueueNode.Consume` answers 500, and `CacheNode.ReadCache` is the read route. The corrected versions sit beside them with their intended properties proved:

- `QueueNode.TargetsAgree`: `ForwardTargetExact` agrees with the written lookup wherever the substring test is unambiguous.
- `QueueNode.ConsumeVersionsAgree`: `ConsumeIntended` differs from `Consume` only in answering 404.
- `CacheNode.IntendedCountsReads`: with `ReadCacheIntended`, each read adds exactly one to the two counters together.

`CacheNode.Step` runs either read, and the invariant is proved for both.

=== FILE: cache_node.dfy ===
/** The cache front of a node: a mock database behind `functools.lru_cache`
    with room for 128 entries, the routes that read, write and invalidate
    through it, and the metrics it reports. The module-level state (the
    database, the cache with its statistics, the metrics instance) is one
    `Node` value that each handler takes and returns. */
module CacheNode {
  import opened Metrics

  /** A JSON value, as a request body carries it or a handler returns it;
      `JNull` is Python's `None`. */
  datatype Json =
    | JNull
    | JBool(b: bool)
    | JNum(n: real)
    | JStr(s: string)
    | JArr(items: seq<Json>)
    | JObj(fields: map<string, Json>)

  /** Python truthiness: `None`, `False`, zero and empty containers are false. */
  predicate Truthy(v: Json) {
    match v
    case JNull => false
    case JBool(b) => b
    case JNum(n) => n != 0.0
    case JStr(s) => s != []
    case JArr(items) => items != []
    case JObj(fields) => fields != map[]
  }

  /** The mock database: key to stored value. */
  type Db = map<string, Json>

  /** `mock_db.get(key)`: `None` for a key that was never written. */
  function Get(db: Db, key: string): Json {
    if key in db then db[key] else JNull
  }

  /** The database as the module starts. */
  const InitialDb: Db := map[
    "item:123" := JStr("Ini adalah data untuk item 123"),
    "item:456" := JStr("Data rahasia untuk item 456")]

  /** `lru_cache(maxsize=128)`. */
  const MaxSize: nat := 128

  /** The state of the `lru_cache` wrapper: the cached results, least recently
      used first, and the hit and miss counts `cache_info()` reports. */
  datatype Lru = Lru(entries: seq<(string, Json)>, hits: nat, misses: nat)

  /** `cache_clear()`: no entries, and both statistics back at zero. */
  function Cleared(): (c: Lru)
    ensures c.entries == [] && c.hits == 0 && c.misses == 0
  {
    Lru([], 0, 0)
  }

  /** No key is cached twice. */
  predicate UniqueKeys(es: seq<(string, Json)>) {
    forall i, j :: 0 <= i < |es| && 0 <= j < |es| && i != j ==> es[i].0 != es[j].0
  }

  /** What `lru_cache` keeps true: at most 128 entries, one per key. */
  predicate LruValid(c: Lru) {
    |c.entries| <= MaxSize && UniqueKeys(c.entries)
  }

  /** Every cached result is what the database now holds for its key. */
  predicate Coherent(c: Lru, db: Db) {
    forall e :: e in c.entries ==> e.1 == Get(db, e.0)
  }

  /** Where `key` is cached; `|es|` when it is not. */
  function Position(es: seq<(string, Json)>, key: string): (i: nat)
    ensures i <= |es|
    ensures i < |es| ==> es[i].0 == key
    ensures forall j :: 0 <= j < i ==> es[j].0 != key
  {
    if es == [] || es[0].0 == key then 0
    else
      var k := Position(es[1..], key);
      assert forall j :: 0 < j <= k ==> es[j] == es[1..][j - 1];
      1 + k
  }

  /** Whether a call with `key` would be a cache hit. */
  predicate Cached(c: Lru, key: string) {
    Position(c.entries, key) < |c.entries|
  }

  /** A key is cached exactly when some entry is for it. */
  lemma CachedIff(c: Lru, key: string)
    ensures Cached(c, key) <==> exists e :: e in c.entries && e.0 == key
  {
    if exists e :: e in c.entries && e.0 == key {
      var e :| e in c.entries && e.0 == key;
      var j :| 0 <= j < |c.entries| && c.entries[j] == e;
    }
  }

  /** The entry at `i` becomes the most recently used one; the others keep
      their order. */
  function MoveToEnd(es: seq<(string, Json)>, i: nat): (r: seq<(string, Json)>)
    requires i < |es|
    ensures |r| == |es| && r[|r| - 1] == es[i]
    ensures forall e :: e in r <==> e in es
  {
    var r := es[..i] + es[i + 1..] + [es[i]];
    assert es == es[..i] + [es[i]] + es[i + 1..];
    r
  }

  /** Moving an entry to the end keeps the keys unique. */
  lemma MoveToEndUnique(es: seq<(string, Json)>, i: nat)
    requires i < |es| && UniqueKeys(es)
    ensures UniqueKeys(MoveToEnd(es, i))
  {
    var r := MoveToEnd(es, i);
    forall p, q | 0 <= p < |r| && 0 <= q < |r| && p != q
      ensures r[p].0 != r[q].0
    {
      var fp := if p < i then p else if p < |es| - 1 then p + 1 else i;
      var fq := if q < i then q else if q < |es| - 1 then q + 1 else i;
      assert r[p] == es[fp] && r[q] == es[fq];
    }
  }

  /** The result of one call of the cached `get_data_from_db`. */
  datatype Call = Call(value: Json, lru: Lru, metrics: CacheMetrics)

  /** `get_data_from_db(key)` through `lru_cache`. A cached key is a hit: its
      stored result comes back and becomes the most recently used entry. Any
      other key is a miss: the function body runs, recording a metrics miss
      and reading the database, and the result, `None` included, is cached,
      pushing out the least recently used entry once 128 are held. */
  function CallCached(db: Db, c: Lru, m: CacheMetrics, key: string): (r: Call)
    ensures Cached(c, key) ==> r.lru.hits == c.hits + 1 && r.lru.misses == c.misses && r.metrics == m
    ensures Cached(c, key) ==> r.value == c.entries[Position(c.entries, key)].1
    ensures !Cached(c, key) ==>
      r.value == Get(db, key) && r.lru.hits == c.hits && r.lru.misses == c.misses + 1 && r.metrics == Miss(m)
    ensures Cached(r.lru, key)
  {
    var i := Position(c.entries, key);
    if i < |c.entries| then
      var es := MoveToEnd(c.entries, i);
      assert es[|es| - 1].0 == key;
      Call(c.entries[i].1, Lru(es, c.hits + 1, c.misses), m)
    else
      var v := Get(db, key);
      var grown := c.entries + [(key, v)];
      var es := if |grown| > MaxSize then grown[1..] else grown;
      assert es[|es| - 1] == (key, v);
      Call(v, Lru(es, c.hits, c.misses + 1), Miss(m))
  }

  /** A call keeps the cache within 128 entries, one per key. */
  lemma CallKeepsValid(db: Db, c: Lru, m: CacheMetrics, key: string)
    requires LruValid(c)
    ensures LruValid(CallCached(db, c, m, key).lru)
  {
    var i := Position(c.entries, key);
    if i < |c.entries| {
      MoveToEndUnique(c.entries, i);
    } else {
      var g := c.entries + [(key, Get(db, key))];
      forall p, q | 0 <= p < |g| && 0 <= q < |g| && p != q
        ensures g[p].0 != g[q].0
      {
        if p < |c.entries| && q < |c.entries| {
          assert g[p] == c.entries[p] && g[q] == c.entries[q];
        }
      }
      if |g| > MaxSize {
        forall p, q | 0 <= p < |g| - 1 && 0 <= q < |g| - 1 && p != q
          ensures g[1..][p].0 != g[1..][q].0
        {
          assert g[1..][p] == g[p + 1] && g[1..][q] == g[q + 1];
        }
      }
    }
  }

  /** With a coherent cache a call returns what the database holds, as if
      there were no cache, and the cache stays coherent. */
  lemma CallIsTransparent(db: Db, c: Lru, m: CacheMetrics, key: string)
    requires Coherent(c, db)
    ensures CallCached(db, c, m, key).value == Get(db, key)
    ensures Coherent(CallCached(db, c, m, key).lru, db)
  {
    var i := Position(c.entries, key);
    if i < |c.entries| {
      assert c.entries[i] in c.entries;
    } else {
      var g := c.entries + [(key, Get(db, key))];
      var r := CallCached(db, c, m, key).lru.entries;
      forall e | e in r
        ensures e.1 == Get(db, e.0)
      {
        assert e in g by {
          if |g| > MaxSize {
            var k :| 0 <= k < |r| && r[k] == e;
            assert g[1..][k] == g[k + 1];
          }
        }
      }
    }
  }

  /** The whole state behind the cache routes. */
  datatype Node = Node(db: Db, lru: Lru, metrics: CacheMetrics)

  /** The state the module starts in. */
  function Start(): (n: Node)
    ensures n.db == InitialDb && n.lru.entries == [] && n.metrics == Fresh()
  {
    Node(InitialDb, Cleared(), Fresh())
  }

  /** What `cache_info()` reports. */
  datatype CacheInfo = CacheInfo(hits: nat, misses: nat, maxsize: nat, currsize: nat)

  /** The JSON a route answers with; `NotFound` is the 404. */
  datatype Reply =
    | Found(key: string, data: Json)
    | NotFound
    | Updated(key: string, newData: Json)
    | Invalidated(key: string)
    | Report(stats: map<string, nat>, cacheInfo: CacheInfo)

  /** A route's reply, the state after it, and the keys whose invalidation it
      has handed to the background broadcast to the peers. */
  datatype Response = Response(reply: Reply, node: Node, broadcasts: seq<string>)

  /** What the cache holds together with the metrics: a valid, coherent
      cache, and metrics counters never below the statistics the cache has
      gathered since it was last cleared. */
  predicate Inv(n: Node) {
    LruValid(n.lru) && Coherent(n.lru, n.db)
    && n.lru.hits <= n.metrics.cacheHits && n.lru.misses <= n.metrics.cacheMisses
  }

  /** The reply to a read of the value `data`: the value when it is truthy,
      else the 404. */
  function ReadReply(key: string, data: Json): (r: Reply)
    ensures r.Found? <==> Truthy(data)
    ensures r.Found? ==> r.key == key && r.data == data
    ensures !r.Found? ==> r == NotFound
  {
    if Truthy(data) then Found(key, data) else NotFound
  }

  /** `GET /cache/{key}` as written: call the cached reader, then record a
      metrics hit whenever the cache's cumulative hit count is positive, so
      after the first hit since the last clear every read records one, a
      miss included. */
  function ReadCache(n: Node, key: string): (r: Response)
    ensures r.node.db == n.db && r.broadcasts == []
    ensures r.reply == ReadReply(key, CallCached(n.db, n.lru, n.metrics, key).value)
    ensures Cached(n.lru, key) ==> r.node.metrics.cacheMisses == n.metrics.cacheMisses
    ensures !Cached(n.lru, key) ==> r.node.metrics.cacheMisses == n.metrics.cacheMisses + 1
    ensures r.node.metrics.cacheHits == n.metrics.cacheHits + (if r.node.lru.hits > 0 then 1 else 0)
    ensures r.node.lru == CallCached(n.db, n.lru, n.metrics, key).lru
  {
    var call := CallCached(n.db, n.lru, n.metrics, key);
    var m := if call.lru.hits > 0 then Hit(call.metrics) else call.metrics;
    Response(ReadReply(key, call.value), Node(n.db, call.lru, m), [])
  }

  /** `GET /cache/{key}` as the check of `cache_info().hits` evidently
      means it: a metrics hit exactly when this read was served from the
      cache. */
  function ReadCacheIntended(n: Node, key: string): (r: Response)
    ensures r.node.db == n.db && r.broadcasts == []
    ensures r.reply == ReadReply(key, CallCached(n.db, n.lru, n.metrics, key).value)
    ensures Cached(n.lru, key) ==> r.node.metrics == Hit(n.metrics)
    ensures !Cached(n.lru, key) ==> r.node.metrics == Miss(n.metrics)
    ensures r.node.lru == CallCached(n.db, n.lru, n.metrics, key).lru
  {
    var call := CallCached(n.db, n.lru, n.metrics, key);
    var m := if Cached(n.lru, key) then Hit(call.metrics) else call.metrics;
    Response(ReadReply(key, call.value), Node(n.db, call.lru, m), [])
  }

  /** `value.get("data")`: `None` when the body has no `data` field. */
  function DataOf(body: map<string, Json>): Json {
    if "data" in body then body["data"] else JNull
  }

  /** `POST /cache/{key}`: store the body's `data` (or `None`) under `key`,
      clear the whole local cache, hand `key` to the background broadcast,
      and echo the stored value. */
  function WriteCache(n: Node, key: string, body: map<string, Json>): (r: Response)
    ensures Get(r.node.db, key) == DataOf(body)
    ensures forall k :: k != key ==> Get(r.node.db, k) == Get(n.db, k)
    ensures r.node.lru == Cleared() && r.node.metrics == n.metrics
    ensures r.broadcasts == [key]
    ensures r.reply == Updated(key, DataOf(body))
  {
    var data := DataOf(body);
    Response(Updated(key, data), Node(n.db[key := data], Cleared(), n.metrics), [key])
  }

  /** `POST /cache/invalidate/{key}`, called by a peer: clear the whole local
      cache; the database and the metrics stay as they are. */
  function InvalidateCache(n: Node, key: string): (r: Response)
    ensures r.node.db == n.db && r.node.metrics == n.metrics
    ensures r.node.lru == Cleared() && r.broadcasts == []
    ensures r.reply == Invalidated(key)
  {
    Response(Invalidated(key), n.(lru := Cleared()), [])
  }

  /** `GET /metrics`: the two counters and the cache statistics; nothing
      changes. */
  function GetMetrics(n: Node): (r: Response)
    ensures r.node == n && r.broadcasts == []
    ensures r.reply.Report? && r.reply.stats == GetStats(n.metrics)
    ensures r.reply.cacheInfo.hits == n.lru.hits && r.reply.cacheInfo.misses == n.lru.misses
    ensures r.reply.cacheInfo.maxsize == MaxSize
    ensures r.reply.cacheInfo.currsize == |n.lru.entries|
  {
    Response(Report(GetStats(n.metrics), CacheInfo(n.lru.hits, n.lru.misses, MaxSize, |n.lru.entries|)), n, [])
  }

  /** With the invariant, `GET /metrics` reports a cache of at most 128
      entries and counters no smaller than the cache's own statistics. */
  lemma MetricsBounds(n: Node)
    requires Inv(n)
    ensures var info := GetMetrics(n).reply.cacheInfo;
      && info.currsize <= info.maxsize
      && info.hits <= GetMetrics(n).reply.stats["cache_hits"]
      && info.misses <= GetMetrics(n).reply.stats["cache_misses"]
  {
  }

  /** A request to one of the cache routes. */
  datatype Request =
    | Read(key: string)
    | Write(key: string, body: map<string, Json>)
    | Invalidate(key: string)
    | MetricsRequest

  /** One request, with reads as written or, when `intended`, with the hit
      recorded only for a read served from the cache. */
  function Step(n: Node, req: Request, intended: bool): Response {
    match req
    case Read(key) => if intended then ReadCacheIntended(n, key) else ReadCache(n, key)
    case Write(key, body) => WriteCache(n, key, body)
    case Invalidate(key) => InvalidateCache(n, key)
    case MetricsRequest => GetMetrics(n)
  }

  /** Every route keeps the invariant, with either kind of read. */
  lemma StepKeepsInv(n: Node, req: Request, intended: bool)
    requires Inv(n)
    ensures Inv(Step(n, req, intended).node)
  {
    if req.Read? {
      CallKeepsValid(n.db, n.lru, n.metrics, req.key);
      CallIsTransparent(n.db, n.lru, n.metrics, req.key);
    }
  }

  /** The requests handled one after another. */
  function Run(n: Node, reqs: seq<Request>, intended: bool): Node
    decreases |reqs|
  {
    if reqs == [] then n else Run(Step(n, reqs[0], intended).node, reqs[1..], intended)
  }

  /** The invariant holds in every state the routes can reach from the
      start. */
  lemma {:induction false} RunKeepsInv(n: Node, reqs: seq<Request>, intended: bool)
    requires Inv(n)
    ensures Inv(Run(n, reqs, intended))
    decreases |reqs|
  {
    if reqs != [] {
      StepKeepsInv(n, reqs[0], intended);
      RunKeepsInv(Step(n, reqs[0], intended).node, reqs[1..], intended);
    }
  }

  /** The start state satisfies the invariant, so every reachable state
      does. */
  lemma Reachable(reqs: seq<Request>, intended: bool)
    ensures Inv(Run(Start(), reqs, intended))
  {
    RunKeepsInv(Start(), reqs, intended);
  }

  /** Neither metrics counter ever goes down, whatever the requests. */
  lemma {:induction false} RunCountersNeverDecrease(n: Node, reqs: seq<Request>, intended: bool)
    ensures Run(n, reqs, intended).metrics.cacheHits >= n.metrics.cacheHits
    ensures Run(n, reqs, intended).metrics.cacheMisses >= n.metrics.cacheMisses
    decreases |reqs|
  {
    if reqs != [] {
      var n1 := Step(n, reqs[0], intended).node;
      assert n1.metrics.cacheHits >= n.metrics.cacheHits && n1.metrics.cacheMisses >= n.metrics.cacheMisses;
      RunCountersNeverDecrease(n1, reqs[1..], intended);
    }
  }

  /** How many of the requests are reads. */
  function CountReads(reqs: seq<Request>): (k: nat)
    ensures k <= |reqs|
  {
    if reqs == [] then 0 else (if reqs[0].Read? then 1 else 0) + CountReads(reqs[1..])
  }

  /** With the intended reads each read records exactly one hit or one miss,
      so the two counters together count the reads. */
  lemma {:induction false} IntendedCountsReads(n: Node, reqs: seq<Request>)
    ensures var after := Run(n, reqs, true).metrics;
      after.cacheHits + after.cacheMisses == n.metrics.cacheHits + n.metrics.cacheMisses + CountReads(reqs)
    decreases |reqs|
  {
    if reqs != [] {
      IntendedCountsReads(Step(n, reqs[0], true).node, reqs[1..]);
    }
  }

  /** As written, a read that misses after an earlier hit since the last
      clear is counted both as a miss and as a hit. */
  lemma MissAfterHitCountsTwice(n: Node, key: string)
    requires n.lru.hits > 0 && !Cached(n.lru, key)
    ensures ReadCache(n, key).node.metrics == Hit(Miss(n.metrics))
    ensures ReadCacheIntended(n, key).node.metrics == Miss(n.metrics)
  {
  }

  /** Such a state is reached by reading one key twice: the second read is a
      hit, after which a read of any other key misses. */
  lemma SecondReadHits(n: Node, a: string, b: string)
    requires Inv(n) && a != b && n.lru.entries == []
    ensures var n2 := ReadCache(ReadCache(n, a).node, a).node;
      n2.lru.hits > 0 && !Cached(n2.lru, b)
  {
    var n1 := ReadCache(n, a).node;
    assert n1.lru.entries == [(a, Get(n.db, a))];
    var n2 := ReadCache(n1, a).node;
    assert n2.lru.entries == [(a, Get(n.db, a))];
  }

  /** A read right after a write returns the written value when it is
      truthy, and the 404 otherwise; it goes to the database, recording a
      miss. */
  lemma ReadYourWrite(n: Node, key: string, body: map<string, Json>)
    ensures var w := WriteCache(n, key, body).node;
      && ReadCache(w, key).reply == ReadReply(key, DataOf(body))
      && ReadCache(w, key).node.metrics == Miss(n.metrics)
  {
    var w := WriteCache(n, key, body).node;
    assert !Cached(w.lru, key);
  }

  /** With the invariant, a read answers what the database holds, cached or
      not: the cache never changes an answer. */
  lemma ReadIsTransparent(n: Node, key: string, intended: bool)
    requires Inv(n)
    ensures Step(n, Read(key), intended).reply == ReadReply(key, Get(n.db, key))
  {
    CallIsTransparent(n.db, n.lru, n.metrics, key);
  }

  /** A second read of the same key is a hit: it records no miss and leaves
      the database untouched. */
  lemma RepeatedReadHits(n: Node, key: string)
    ensures var n1 := ReadCache(n, key).node;
      && Cached(n1.lru, key)
      && ReadCache(n1, key).node.metrics.cacheMisses == n1.metrics.cacheMisses
      && ReadCache(n1, key).node.metrics.cacheHits == n1.metrics.cacheHits + 1
  {
  }

  /** Invalidating clears the cache, so the next read of any key misses. */
  lemma InvalidateThenMiss(n: Node, key: string, other: string)
    ensures var i := InvalidateCache(n, key).node;
      ReadCache(i, other).node.metrics.cacheMisses == n.metrics.cacheMisses + 1
  {
  }

  /** At start-up the two seeded items read back as stored; a key the
      database never held is the 404. */
  lemma SeededItems(other: string)
    requires other !in InitialDb
    ensures ReadCache(Start(), "item:123").reply == Found("item:123", JStr("Ini adalah data untuk item 123"))
    ensures ReadCache(Start(), other).reply == NotFound
  {
  }
}

=== FILE: config.dfy ===
/** `Settings`: the node's configuration, derived once at start-up from the
    process environment, which is passed in here as a map from variable names
    to values. */
module Config {
  import opened Wrappers
  import opened Seqs
  import opened Strings

  /** The process environment: variable name to value. */
  type Env = map<string, string>

  datatype Settings = Settings(
    port: int,
    nodeId: string,
    allNodes: seq<string>,
    selfUrl: string,
    peers: seq<string>,
    redisHost: string,
    redisPort: int)

  /** `int(...)` raised `ValueError` on the text of this variable. */
  datatype ConfigError = NotAnInteger(variable: string, text: string)

  const DefaultPort := "8000"
  const DefaultNodeId := "default_node"
  const DefaultRedisHost := "redis"
  const DefaultRedisPort := "6379"

  /** `os.getenv(name, default)`. */
  function GetEnv(env: Env, name: string, default: string): string {
    if name in env then env[name] else default
  }

  /** Each piece stripped of surrounding whitespace, in order. */
  function StripAll(parts: seq<string>): (r: seq<string>)
    ensures |r| == |parts|
    ensures forall i :: 0 <= i < |r| ==> r[i] == Strip(parts[i])
  {
    if parts == [] then [] else [Strip(parts[0])] + StripAll(parts[1..])
  }

  /** Stripping the pieces of a split keeps them free of the separator and
      leaves none with whitespace at either end. */
  lemma StripAllShape(parts: seq<string>)
    requires forall i :: 0 <= i < |parts| ==> ',' !in parts[i]
    ensures forall i :: 0 <= i < |parts| ==> ',' !in StripAll(parts)[i]
    ensures forall i :: 0 <= i < |parts| ==> Stripped(StripAll(parts)[i])
  {
    forall i | 0 <= i < |parts| && ',' in StripAll(parts)[i]
      ensures false
    {
      StripKeeps(parts[i], ',');
    }
    forall i | 0 <= i < |parts|
      ensures Stripped(StripAll(parts)[i])
    {
      StripStripped(parts[i]);
    }
  }

  /** `[node.strip() for node in nodes_str.split(',')]`: one entry per
      comma-separated piece, never empty, no entry holding a comma or
      starting or ending with whitespace. */
  function SplitNodes(s: string): (r: seq<string>)
    ensures |r| == multiset(s)[','] + 1
    ensures forall i :: 0 <= i < |r| ==> ',' !in r[i]
    ensures forall i :: 0 <= i < |r| ==> Stripped(r[i])
    ensures forall i :: 0 <= i < |r| ==> r[i] == Strip(Split(s, ',')[i])
  {
    StripAllShape(Split(s, ','));
    StripAll(Split(s, ','))
  }

  /** A node list written as comma-separated, already stripped addresses is
      read back exactly, in order and with any repeats. */
  lemma SplitNodesJoin(nodes: seq<string>)
    requires |nodes| >= 1
    requires forall i :: 0 <= i < |nodes| ==> ',' !in nodes[i]
    requires forall i :: 0 <= i < |nodes| ==> Stripped(nodes[i])
    ensures SplitNodes(Join(nodes, ',')) == nodes
  {
    SplitJoin(nodes, ',');
    forall i | 0 <= i < |nodes|
      ensures Strip(nodes[i]) == nodes[i]
    {
      StripNoEdges(nodes[i]);
    }
  }

  /** `f"http://{node_id}:{port}"`. */
  function SelfUrl(nodeId: string, port: int): string {
    "http://" + nodeId + ":" + IntToString(port)
  }

  /** The default node list, `f"http://localhost:{port}"`: the URL a node
      called "localhost" would build for itself. */
  function LocalUrl(port: int): string {
    SelfUrl("localhost", port)
  }

  /** The settings once the two integers are read: the node list split from
      its text, the node's own URL, and the peers, which are the listed nodes
      other than that URL, in their order and with their repeats. */
  function Derive(port: int, nodeId: string, nodesText: string, redisHost: string, redisPort: int)
    : (st: Settings)
    ensures st.port == port && st.nodeId == nodeId
    ensures st.redisHost == redisHost && st.redisPort == redisPort
    ensures st.allNodes == SplitNodes(nodesText) && |st.allNodes| >= 1
    ensures st.selfUrl == SelfUrl(nodeId, port)
    ensures st.selfUrl !in st.peers && |st.peers| <= |st.allNodes|
    ensures forall u :: u in st.peers <==> u in st.allNodes && u != st.selfUrl
    ensures st.peers == RemoveAll(st.allNodes, st.selfUrl)
  {
    var allNodes := SplitNodes(nodesText);
    var selfUrl := SelfUrl(nodeId, port);
    Settings(port, nodeId, allNodes, selfUrl, RemoveAll(allNodes, selfUrl), redisHost, redisPort)
  }

  /** Each listed node other than this one appears among the peers exactly as
      often as in the node list. */
  lemma PeersKeepRepeats(port: int, nodeId: string, nodesText: string, redisHost: string, redisPort: int, u: string)
    requires u != SelfUrl(nodeId, port)
    ensures multiset(Derive(port, nodeId, nodesText, redisHost, redisPort).peers)[u]
      == multiset(SplitNodes(nodesText))[u]
  {
  }

  /** `Settings()`: read `PORT`, `NODE_ID`, `ALL_NODES`, `REDIS_HOST` and
      `REDIS_PORT` with their defaults (the default node list is this node's
      localhost URL); fails when `PORT` or `REDIS_PORT` is not an integer,
      `PORT` being read first. */
  function Load(env: Env): (r: Result<Settings, ConfigError>)
    ensures r.Failure? <==>
      ParseInt(GetEnv(env, "PORT", DefaultPort)).None? ||
      ParseInt(GetEnv(env, "REDIS_PORT", DefaultRedisPort)).None?
    ensures ParseInt(GetEnv(env, "PORT", DefaultPort)).None? ==>
      r == Failure(NotAnInteger("PORT", GetEnv(env, "PORT", DefaultPort)))
    ensures r.Success? ==>
      var port := ParseInt(GetEnv(env, "PORT", DefaultPort)).value;
      r.value == Derive(port, GetEnv(env, "NODE_ID", DefaultNodeId),
        GetEnv(env, "ALL_NODES", LocalUrl(port)), GetEnv(env, "REDIS_HOST", DefaultRedisHost),
        ParseInt(GetEnv(env, "REDIS_PORT", DefaultRedisPort)).value)
  {
    var portText := GetEnv(env, "PORT", DefaultPort);
    match ParseInt(portText)
    case None => Failure(NotAnInteger("PORT", portText))
    case Some(port) =>
      var redisPortText := GetEnv(env, "REDIS_PORT", DefaultRedisPort);
      match ParseInt(redisPortText)
      case None => Failure(NotAnInteger("REDIS_PORT", redisPortText))
      case Some(redisPort) =>
        Success(Derive(port, GetEnv(env, "NODE_ID", DefaultNodeId),
          GetEnv(env, "ALL_NODES", LocalUrl(port)), GetEnv(env, "REDIS_HOST", DefaultRedisHost),
          redisPort))
  }

  /** The URL a node builds for localhost is a one-entry node list. */
  lemma LocalUrlIsOneNode(port: int)
    ensures SplitNodes(LocalUrl(port)) == [LocalUrl(port)]
  {
    var u := LocalUrl(port);
    var digits := IntToString(port);
    assert ',' !in digits by {
      if port < 0 {
        assert digits == "-" + digits[1..];
      }
    }
    assert ',' !in u;
    assert Stripped(u) by {
      assert u[0] == 'h' && u[|u| - 1] == digits[|digits| - 1];
    }
    SplitNodesJoin([u]);
  }

  /** Without `ALL_NODES` the node list is the single entry for localhost on
      this node's port. */
  lemma DefaultNodeList(env: Env)
    requires "ALL_NODES" !in env && Load(env).Success?
    ensures Load(env).value.allNodes == [LocalUrl(Load(env).value.port)]
  {
    LocalUrlIsOneNode(Load(env).value.port);
  }

  /** "8000" is the spelling of 8000. */
  lemma Spell8000()
    ensures IntToString(8000) == "8000"
  {
    assert NatToString(8) == "8";
    assert NatToString(80) == "80";
    assert NatToString(800) == "800";
  }

  /** "6379" is the spelling of 6379. */
  lemma Spell6379()
    ensures IntToString(6379) == "6379"
  {
    assert NatToString(6) == "6";
    assert NatToString(63) == "63";
    assert NatToString(637) == "637";
  }

  /** The two default port texts read as the integers they spell. */
  lemma DefaultPortsParse()
    ensures ParseInt(DefaultPort) == Some(8000)
    ensures ParseInt(DefaultRedisPort) == Some(6379)
  {
    Spell8000();
    assert NatToString(8000) == IntToString(8000);
    ParseIntToString(8000);
    Spell6379();
    assert NatToString(6379) == IntToString(6379);
    ParseIntToString(6379);
  }

  /** The URLs built for port 8000. */
  lemma DefaultUrls()
    ensures LocalUrl(8000) == "http://localhost:8000"
    ensures SelfUrl(DefaultNodeId, 8000) == "http://default_node:8000"
  {
    Spell8000();
  }

  /** Every variable unset: both integers are the defaults. */
  lemma LoadEmpty()
    ensures Load(map[]) == Success(Derive(8000, DefaultNodeId, LocalUrl(8000), DefaultRedisHost, 6379))
  {
    DefaultPortsParse();
  }

  /** An empty environment gives port 8000, node id "default_node", Redis at
      "redis":6379, and as node list and peers the single localhost URL,
      which `DefaultUrls` spells out together with the node's own URL. */
  lemma Defaults()
    ensures Load(map[]) == Success(Settings(
      8000, DefaultNodeId, [LocalUrl(8000)], SelfUrl(DefaultNodeId, 8000),
      [LocalUrl(8000)], DefaultRedisHost, 6379))
  {
    LoadEmpty();
    LocalUrlIsOneNode(8000);
    var local, own := LocalUrl(8000), SelfUrl(DefaultNodeId, 8000);
    assert |local| != |own|;
    RemoveAllAbsent([LocalUrl(8000)], SelfUrl(DefaultNodeId, 8000));
  }
}

=== FILE: hashing.dfy ===
/** The consistent-hash ring of `ConsistentHasher`: every node is placed on the
    ring at the hashes of its replica labels `"{node}:{i}"`, and a key belongs
    to the node at the first ring point strictly above the key's hash, wrapping
    around to the lowest point. The MD5 digest is left uninterpreted: every
    operation takes the hash function `h` as a parameter. */
module Hashing {
  import opened Wrappers
  import opened Seqs
  import Strings

  /** The digest of a text, read as a non-negative integer. */
  type HashFn = string -> nat

  /** The number of ring points per node when the caller names none. */
  const DefaultReplicas: int := 5

  /** `replicas` as given; `ring` maps each ring point to its node;
      `sortedKeys` lists the ring points in ascending order, one entry per
      placement, so a point placed twice is listed twice. */
  datatype Hasher = Hasher(replicas: int, ring: map<nat, string>, sortedKeys: seq<nat>)

  /** What every reachable hasher satisfies: the listed points are in
      ascending order and are exactly the points of the ring. */
  ghost predicate Valid(hs: Hasher) {
    && Sorted(hs.sortedKeys)
    && (forall k :: k in hs.ring <==> k in multiset(hs.sortedKeys))
  }

  /** How many times `for i in range(replicas)` runs: never for a negative count. */
  function ReplicaCount(replicas: int): nat {
    if replicas < 0 then 0 else replicas
  }

  /** The label `"{node}:{i}"` whose hash is the `i`-th ring point of `node`. */
  function Label(node: string, i: nat): string {
    node + ":" + Strings.NatToString(i)
  }

  /** The ring points of `node`, in the order the loop of `add_node` makes them. */
  function ReplicaKeys(h: HashFn, node: string, count: nat): (keys: seq<nat>)
    ensures |keys| == count
  {
    if count == 0 then [] else ReplicaKeys(h, node, count - 1) + [h(Label(node, count - 1))]
  }

  /** The `i`-th ring point of a node is the hash of its `i`-th label. */
  lemma {:induction false} ReplicaKeyAt(h: HashFn, node: string, count: nat, i: nat)
    requires i < count
    ensures ReplicaKeys(h, node, count)[i] == h(Label(node, i))
  {
    if i < count - 1 {
      ReplicaKeyAt(h, node, count - 1, i);
    }
  }

  /** `self._ring[key] = node` for every key in turn. */
  function Place(ring: map<nat, string>, node: string, keys: seq<nat>): (r: map<nat, string>)
    ensures r.Keys == ring.Keys + set k | k in keys
    ensures forall k :: k in keys ==> r[k] == node
    ensures forall k :: k in ring && k !in keys ==> r[k] == ring[k]
    decreases |keys|
  {
    if keys == [] then ring else Place(ring[keys[0] := node], node, keys[1..])
  }

  /** Every element of a list holding the elements of `u` and `x` is at
      least a common lower bound `b` of them. */
  lemma BoundedElements(t: seq<nat>, u: seq<nat>, x: nat, b: nat)
    requires multiset(t) == multiset(u) + multiset{x}
    requires b <= x && forall i :: 0 <= i < |u| ==> b <= u[i]
    ensures forall k :: 0 <= k < |t| ==> b <= t[k]
  {
    forall k | 0 <= k < |t|
      ensures b <= t[k]
    {
      assert t[k] in multiset(t);
      if t[k] != x {
        assert t[k] in multiset(u);
      }
    }
  }

  /** `s` with `x` put in at its place in ascending order. */
  function Insert(s: seq<nat>, x: nat): (r: seq<nat>)
    requires Sorted(s)
    ensures Sorted(r)
    ensures multiset(r) == multiset(s) + multiset{x}
  {
    if s == [] || x <= s[0] then
      ConsSorted(x, s);
      [x] + s
    else
      var tail := s[1..];
      SortedTail(s);
      var t := Insert(tail, x);
      BoundedElements(t, tail, x, s[0]);
      ConsSorted(s[0], t);
      assert multiset(s) == multiset{s[0]} + multiset(tail) by {
        assert s == [s[0]] + tail;
      }
      [s[0]] + t
  }

  /** The tail of an ascending list is ascending and bounded below by its
      head. */
  lemma SortedTail(s: seq<nat>)
    requires Sorted(s) && s != []
    ensures Sorted(s[1..])
    ensures forall k :: 0 <= k < |s| - 1 ==> s[0] <= s[1..][k]
  {
    forall k | 0 <= k < |s| - 1
      ensures s[0] <= s[1..][k]
    {
      assert s[1..][k] == s[k + 1];
    }
  }

  /** An element no larger than anything in an ascending list can go in
      front of it. */
  lemma ConsSorted(x: nat, t: seq<nat>)
    requires Sorted(t) && forall k :: 0 <= k < |t| ==> x <= t[k]
    ensures Sorted([x] + t)
  {
    var r := [x] + t;
    forall i, j | 0 <= i < j < |r|
      ensures r[i] <= r[j]
    {
      assert r[j] == t[j - 1];
      if i > 0 {
        assert r[i] == t[i - 1];
      }
    }
  }

  /** `list.sort()` on integers: the ascending arrangement of the same
      elements. By `Seqs.SortedUnique` there is only one, so the choice of
      algorithm does not matter. */
  function Sort(s: seq<nat>): (r: seq<nat>)
    ensures Sorted(r)
    ensures multiset(r) == multiset(s)
    ensures |r| == |s|
  {
    if s == [] then []
    else
      assert s == s[..|s| - 1] + [s[|s| - 1]];
      var r := Insert(Sort(s[..|s| - 1]), s[|s| - 1]);
      assert |multiset(r)| == |r| && |multiset(s)| == |s|;
      r
  }

  /** `ConsistentHasher.add_node`: place `node` at the hash of each of its
      replica labels, overwriting any node already at that point, append the
      points to the key list and sort it. */
  function AddNode(h: HashFn, hs: Hasher, node: string): (r: Hasher)
    ensures r.replicas == hs.replicas
    ensures Valid(hs) ==> Valid(r)
    ensures |r.sortedKeys| == |hs.sortedKeys| + ReplicaCount(hs.replicas)
    ensures multiset(r.sortedKeys)
      == multiset(hs.sortedKeys) + multiset(ReplicaKeys(h, node, ReplicaCount(hs.replicas)))
    ensures forall k :: k in r.ring <==> k in hs.ring || k in ReplicaKeys(h, node, ReplicaCount(hs.replicas))
    ensures forall k :: k in ReplicaKeys(h, node, ReplicaCount(hs.replicas)) ==> r.ring[k] == node
    ensures forall k ::
      k in hs.ring && k !in ReplicaKeys(h, node, ReplicaCount(hs.replicas)) ==> r.ring[k] == hs.ring[k]
  {
    var keys := ReplicaKeys(h, node, ReplicaCount(hs.replicas));
    var ring := Place(hs.ring, node, keys);
    var sorted := Sort(hs.sortedKeys + keys);
    assert multiset(sorted) == multiset(hs.sortedKeys) + multiset(keys);
    assert Valid(hs) ==> Valid(Hasher(hs.replicas, ring, sorted)) by {
      if Valid(hs) {
        forall k
          ensures k in ring <==> k in multiset(sorted)
        {
          assert k in keys <==> k in multiset(keys);
        }
      }
    }
    Hasher(hs.replicas, ring, sorted)
  }

  /** After `add_node(node)` the node owns the hash of each of its replica labels. */
  lemma AddNodeOwnsLabels(h: HashFn, hs: Hasher, node: string, i: nat)
    requires i < ReplicaCount(hs.replicas)
    ensures h(Label(node, i)) in AddNode(h, hs, node).ring
    ensures AddNode(h, hs, node).ring[h(Label(node, i))] == node
  {
    ReplicaKeyAt(h, node, ReplicaCount(hs.replicas), i);
    assert ReplicaKeys(h, node, ReplicaCount(hs.replicas))[i] in ReplicaKeys(h, node, ReplicaCount(hs.replicas));
  }

  lemma MulSucc(n: nat, c: nat)
    ensures (n + 1) * c == n * c + c
  {
  }

  /** `ConsistentHasher(nodes, replicas)`: start from an empty ring and add the
      nodes in order. A missing node list behaves as the empty list. Its
      properties are the lemmas that follow. */
  function New(h: HashFn, nodes: seq<string>, replicas: int := DefaultReplicas): (hs: Hasher)
    ensures hs.replicas == replicas
    decreases |nodes|
  {
    if nodes == [] then Hasher(replicas, map[], [])
    else AddNode(h, New(h, nodes[..|nodes| - 1], replicas), nodes[|nodes| - 1])
  }

  /** A freshly built hasher keeps its points sorted and lists exactly its ring. */
  lemma {:induction false} NewValid(h: HashFn, nodes: seq<string>, replicas: int)
    ensures Valid(New(h, nodes, replicas))
    decreases |nodes|
  {
    if nodes != [] {
      NewValid(h, nodes[..|nodes| - 1], replicas);
    }
  }

  /** Each node adds exactly `replicas` points to the key list. */
  lemma {:induction false} NewSize(h: HashFn, nodes: seq<string>, replicas: int)
    ensures |New(h, nodes, replicas).sortedKeys| == |nodes| * ReplicaCount(replicas)
    decreases |nodes|
  {
    if nodes != [] {
      NewSize(h, nodes[..|nodes| - 1], replicas);
      MulSucc(|nodes| - 1, ReplicaCount(replicas));
    }
  }

  /** Every point of a freshly built ring belongs to one of the given nodes. */
  lemma {:induction false} NewOwnersAreNodes(h: HashFn, nodes: seq<string>, replicas: int)
    ensures forall k :: k in New(h, nodes, replicas).ring ==> New(h, nodes, replicas).ring[k] in nodes
    decreases |nodes|
  {
    if nodes != [] {
      var prefix := nodes[..|nodes| - 1];
      NewOwnersAreNodes(h, prefix, replicas);
      assert forall n :: n in prefix ==> n in nodes;
    }
  }

  /** The ring is empty exactly when there were no nodes or no replicas. */
  lemma {:induction false} NewEmptyIff(h: HashFn, nodes: seq<string>, replicas: int)
    ensures New(h, nodes, replicas).ring == map[] <==> nodes == [] || ReplicaCount(replicas) == 0
    decreases |nodes|
  {
    if nodes != [] {
      var last := nodes[|nodes| - 1];
      NewEmptyIff(h, nodes[..|nodes| - 1], replicas);
      if ReplicaCount(replicas) > 0 {
        AddNodeOwnsLabels(h, New(h, nodes[..|nodes| - 1], replicas), last, 0);
      }
    }
  }

  /** `bisect.bisect` (that is, `bisect_right`) described directly: the
      number of leading points that are at most `x`. */
  function FirstAbove(a: seq<nat>, x: nat): (i: nat)
    ensures i <= |a|
    ensures forall j :: 0 <= j < i ==> a[j] <= x
    ensures i < |a| ==> a[i] > x
  {
    if a == [] || a[0] > x then 0 else 1 + FirstAbove(a[1..], x)
  }

  /** `FirstAbove` is the only split point of a list into a part at most `x`
      followed by a part above `x`. */
  lemma {:induction false} FirstAboveUnique(a: seq<nat>, x: nat, i: nat)
    requires i <= |a|
    requires forall j :: 0 <= j < i ==> a[j] <= x
    requires forall j :: i <= j < |a| ==> a[j] > x
    ensures FirstAbove(a, x) == i
  {
    if a != [] && a[0] <= x {
      FirstAboveUnique(a[1..], x, i - 1);
    }
  }

  /** The binary search of `bisect.bisect`, as CPython runs it on a sorted list. */
  method Bisect(a: seq<nat>, x: nat) returns (lo: nat)
    requires Sorted(a)
    ensures lo == FirstAbove(a, x)
  {
    var hi := |a|;
    lo := 0;
    while lo < hi
      invariant lo <= hi <= |a|
      invariant forall j :: 0 <= j < lo ==> a[j] <= x
      invariant forall j :: hi <= j < |a| ==> a[j] > x
    {
      var mid := (lo + hi) / 2;
      if x < a[mid] {
        hi := mid;
      } else {
        lo := mid + 1;
      }
    }
    FirstAboveUnique(a, x, lo);
  }

  /** Every listed point is a point of the ring. */
  lemma PointListed(hs: Hasher, i: nat)
    requires Valid(hs) && i < |hs.sortedKeys|
    ensures hs.sortedKeys[i] in hs.ring
  {
    assert hs.sortedKeys[i] in multiset(hs.sortedKeys);
  }

  /** Every point of the ring is listed, at some position. */
  lemma IndexOfPoint(hs: Hasher, k: nat) returns (j: nat)
    requires Valid(hs) && k in hs.ring
    ensures j < |hs.sortedKeys| && hs.sortedKeys[j] == k
  {
    assert k in multiset(hs.sortedKeys);
    j :| 0 <= j < |hs.sortedKeys| && hs.sortedKeys[j] == k;
  }

  /** A valid hasher with a non-empty ring lists at least one point. */
  lemma ListedWhenNonEmpty(hs: Hasher)
    requires Valid(hs) && hs.ring != map[]
    ensures |hs.sortedKeys| > 0
  {
    var p :| p in hs.ring;
    assert p in multiset(hs.sortedKeys);
  }

  /** `ConsistentHasher.get_node`: `None` for an empty ring; otherwise the node
      at the first listed point strictly above the key's hash, or at the first
      listed point when the hash is at or above all of them. */
  function GetNode(h: HashFn, hs: Hasher, itemKey: string): (r: Option<string>)
    requires Valid(hs)
    ensures r.None? <==> hs.ring == map[]
    ensures r.Some? ==> r.value in hs.ring.Values
  {
    if hs.ring == map[] then None
    else
      ListedWhenNonEmpty(hs);
      var key := h(itemKey);
      var idx := FirstAbove(hs.sortedKeys, key) % |hs.sortedKeys|;
      Some(hs.ring[hs.sortedKeys[idx]])
  }

  /** `get_node` answers with the node at the listed point that the
      wrapped-around bisection lands on. */
  lemma OwnerAtBisection(h: HashFn, hs: Hasher, itemKey: string, k: nat)
    requires Valid(hs) && k in hs.ring
    requires hs.sortedKeys[FirstAbove(hs.sortedKeys, h(itemKey)) % |hs.sortedKeys|] == k
    ensures GetNode(h, hs, itemKey) == Some(hs.ring[k])
  {
  }

  /** With a ring point above `x`, bisection lands on the smallest such point. */
  lemma BisectionAbove(hs: Hasher, x: nat, k: nat)
    requires Valid(hs)
    requires k in hs.ring && k > x
    requires forall p :: p in hs.ring && p > x ==> k <= p
    ensures |hs.sortedKeys| > 0
    ensures hs.sortedKeys[FirstAbove(hs.sortedKeys, x) % |hs.sortedKeys|] == k
  {
    var a := hs.sortedKeys;
    var j := IndexOfPoint(hs, k);
    var i := FirstAbove(a, x);
    assert i <= j;
    PointListed(hs, i);
    assert a[i] <= a[j];
    ModBelow(i, |a|);
  }

  lemma ModBelow(i: nat, n: nat)
    requires i < n
    ensures i % n == i
  {
  }

  /** With every ring point at or below `x`, bisection wraps to the first point. */
  lemma BisectionWraps(hs: Hasher, x: nat, k: nat)
    requires Valid(hs)
    requires k in hs.ring && forall p :: p in hs.ring ==> k <= p
    requires forall p :: p in hs.ring ==> p <= x
    ensures |hs.sortedKeys| > 0
    ensures hs.sortedKeys[FirstAbove(hs.sortedKeys, x) % |hs.sortedKeys|] == k
  {
    var a := hs.sortedKeys;
    forall j | 0 <= j < |a|
      ensures a[j] <= x
    {
      PointListed(hs, j);
    }
    FirstAboveUnique(a, x, |a|);
    var j := IndexOfPoint(hs, k);
    assert a[0] <= a[j];
    PointListed(hs, 0);
  }

  /** The owner is the node at the smallest ring point strictly above the key's
      hash: a hash equal to a ring point goes to the next point. */
  lemma OwnerAbove(h: HashFn, hs: Hasher, itemKey: string, k: nat)
    requires Valid(hs)
    requires k in hs.ring && k > h(itemKey)
    requires forall p :: p in hs.ring && p > h(itemKey) ==> k <= p
    ensures GetNode(h, hs, itemKey) == Some(hs.ring[k])
  {
    BisectionAbove(hs, h(itemKey), k);
    OwnerAtBisection(h, hs, itemKey, k);
  }

  /** When the key's hash is at or above every ring point, the owner wraps
      around to the node at the smallest point. */
  lemma OwnerWrapsAround(h: HashFn, hs: Hasher, itemKey: string, k: nat)
    requires Valid(hs)
    requires k in hs.ring && forall p :: p in hs.ring ==> k <= p
    requires forall p :: p in hs.ring ==> p <= h(itemKey)
    ensures GetNode(h, hs, itemKey) == Some(hs.ring[k])
  {
    BisectionWraps(hs, h(itemKey), k);
    OwnerAtBisection(h, hs, itemKey, k);
  }

  /** A ring built from at least one node with at least one replica resolves
      every key, and always to one of the nodes it was built from. */
  lemma OwnerIsAddedNode(h: HashFn, nodes: seq<string>, replicas: int, itemKey: string)
    requires nodes != [] && ReplicaCount(replicas) > 0
    ensures Valid(New(h, nodes, replicas))
    ensures GetNode(h, New(h, nodes, replicas), itemKey).Some?
    ensures GetNode(h, New(h, nodes, replicas), itemKey).value in nodes
  {
    NewValid(h, nodes, replicas);
    NewEmptyIff(h, nodes, replicas);
    NewOwnersAreNodes(h, nodes, replicas);
  }

  /** When a replica label of a later node hashes to the same point as one of
      an earlier node, the later node owns the point and the key list holds
      the point once more for each placement. */
  lemma LaterNodeOverwrites(h: HashFn, hs: Hasher, a: string, b: string, i: nat, j: nat)
    requires i < ReplicaCount(hs.replicas) && j < ReplicaCount(hs.replicas)
    requires h(Label(a, i)) == h(Label(b, j))
    ensures h(Label(a, i)) in AddNode(h, AddNode(h, hs, a), b).ring
    ensures AddNode(h, AddNode(h, hs, a), b).ring[h(Label(a, i))] == b
    ensures multiset(AddNode(h, AddNode(h, hs, a), b).sortedKeys)[h(Label(a, i))]
      >= multiset(hs.sortedKeys)[h(Label(a, i))] + 2
  {
    var n := ReplicaCount(hs.replicas);
    ReplicaKeyAt(h, a, n, i);
    ReplicaKeyAt(h, b, n, j);
    var x := h(Label(a, i));
    assert ReplicaKeys(h, a, n)[i] == x;
    assert ReplicaKeys(h, b, n)[j] == x;
  }
}

=== FILE: metrics.dfy ===
/** `CacheMetrics`: the two counters the cache front reports, one for cache
    hits and one for cache misses. The process holds a single instance; here
    it is a value, and each update returns the next one. */
module Metrics {

  datatype CacheMetrics = CacheMetrics(cacheHits: nat, cacheMisses: nat)

  /** A new instance: both counters at zero. */
  function Fresh(): (m: CacheMetrics)
    ensures m.cacheHits == 0 && m.cacheMisses == 0
  {
    CacheMetrics(0, 0)
  }

  /** `hit()`: one more hit, misses unchanged. */
  function Hit(m: CacheMetrics): (r: CacheMetrics)
    ensures r.cacheHits == m.cacheHits + 1
    ensures r.cacheMisses == m.cacheMisses
  {
    m.(cacheHits := m.cacheHits + 1)
  }

  /** `miss()`: one more miss, hits unchanged. */
  function Miss(m: CacheMetrics): (r: CacheMetrics)
    ensures r.cacheMisses == m.cacheMisses + 1
    ensures r.cacheHits == m.cacheHits
  {
    m.(cacheMisses := m.cacheMisses + 1)
  }

  /** `get_stats()`: the two counters under their names, nothing else. */
  function GetStats(m: CacheMetrics): (stats: map<string, nat>)
    ensures stats.Keys == {"cache_hits", "cache_misses"}
    ensures stats["cache_hits"] == m.cacheHits
    ensures stats["cache_misses"] == m.cacheMisses
  {
    map["cache_hits" := m.cacheHits, "cache_misses" := m.cacheMisses]
  }

  /** The counters can be read back from the statistics: `get_stats` loses
      nothing. */
  lemma StatsDetermineCounters(m: CacheMetrics, n: CacheMetrics)
    requires GetStats(m) == GetStats(n)
    ensures m == n
  {
    assert GetStats(m)["cache_hits"] == GetStats(n)["cache_hits"];
    assert GetStats(m)["cache_misses"] == GetStats(n)["cache_misses"];
  }

  /** One call on the instance. */
  datatype Event = HitEvent | MissEvent

  /** The instance after the calls in `events`, in order, starting from `m`. */
  function Replay(m: CacheMetrics, events: seq<Event>): CacheMetrics
    decreases |events|
  {
    if events == [] then m
    else Replay(if events[0].HitEvent? then Hit(m) else Miss(m), events[1..])
  }

  /** How many of `events` are hits. */
  function CountHits(events: seq<Event>): (n: nat)
    ensures n <= |events|
  {
    if events == [] then 0 else (if events[0].HitEvent? then 1 else 0) + CountHits(events[1..])
  }

  /** Each counter counts exactly its own calls: after any calls, the hits
      went up by the number of `hit()` calls and the misses by the rest. */
  lemma {:induction false} ReplayCounts(m: CacheMetrics, events: seq<Event>)
    ensures Replay(m, events).cacheHits == m.cacheHits + CountHits(events)
    ensures Replay(m, events).cacheMisses == m.cacheMisses + |events| - CountHits(events)
    decreases |events|
  {
    if events != [] {
      ReplayCounts(if events[0].HitEvent? then Hit(m) else Miss(m), events[1..]);
    }
  }

  /** Neither counter ever goes down. */
  lemma {:induction false} CountersNeverDecrease(m: CacheMetrics, events: seq<Event>)
    ensures Replay(m, events).cacheHits >= m.cacheHits
    ensures Replay(m, events).cacheMisses >= m.cacheMisses
  {
    ReplayCounts(m, events);
  }

  /** Calls split anywhere replay in two parts. */
  lemma {:induction false} ReplayAppend(m: CacheMetrics, a: seq<Event>, b: seq<Event>)
    ensures Replay(m, a + b) == Replay(Replay(m, a), b)
    decreases |a|
  {
    if a == [] {
      assert a + b == b;
    } else {
      assert (a + b)[1..] == a[1..] + b;
      ReplayAppend(if a[0].HitEvent? then Hit(m) else Miss(m), a[1..], b);
    }
  }
}

=== FILE: queue_node.dfy ===
/** The sharded queue node: at start-up it reads the node ids out of the
    configured URLs and builds the consistent-hash ring over them; each queue
    request is then either served against the local Redis lists, when the
    ring names this node as the queue's owner, or forwarded to the owner's
    URL. Consumption is at-least-once: a consumed message waits in
    `"{queue}:processing"` until it is acknowledged.

    Redis is the list store of `RedisLists`; whether it is reachable is a
    flag fixed at start-up, and a failing Redis command is the `fault`
    argument of a handler. The forwarded HTTP call is the `net` argument:
    what the upstream node answers at each URL. */
module QueueNode {
  import opened Wrappers
  import opened Seqs
  import opened Strings
  import opened Hashing
  import opened Config
  import opened RedisLists

  /** `id` is the host part at the front of `rest`: a prefix holding no `:`,
      with no `//` starting inside it, and followed by a `:`, a `//` or the
      end of `rest`. */
  predicate HostId(rest: string, id: string) {
    && id <= rest && ':' !in id
    && (forall j :: 0 <= j < |id| ==> !OccursAt(rest, "//", j))
    && (|id| == |rest| || rest[|id|] == ':' || OccursAt(rest, "//", |id|))
  }

  /** At most one prefix is the host part: it stops at the first `:` or `//`. */
  lemma HostIdUnique(rest: string, a: string, b: string)
    requires HostId(rest, a) && HostId(rest, b)
    ensures a == b
  {
    assert |a| == |b|;
    assert a == rest[..|a|] && b == rest[..|b|];
  }

  /** `rest.split('//')[0].split(':')[0]` is the host part of `rest`. */
  lemma SplitsGiveHostId(rest: string)
    ensures HostId(rest, BeforeFirst(BeforeFirst(rest, "//"), ":"))
  {
    var host := BeforeFirst(rest, "//");
    var id := BeforeFirst(host, ":");
    BeforeFirstChar(host, ':');
    if |id| < |host| {
      assert OccursAt(host, ":", |id|);
      assert host[|id|..|id| + 1] == ":";
      assert rest[|id|] == host[|id|];
    }
  }

  /** `url.split('//')[1].split(':')[0]`: the text after the first `//` up to
      the next `//` or `:`. A URL without `//` makes Python raise
      `IndexError`, modelled as `None`. */
  function ParseNodeId(url: string): (r: Option<string>)
    ensures r.None? <==> forall j :: 0 <= j <= |url| ==> !OccursAt(url, "//", j)
    ensures r.Some? ==> ':' !in r.value
    ensures r.Some? ==> Find(url, "//").Some? && HostId(url[Find(url, "//").value + 2..], r.value)
  {
    match Find(url, "//")
    case None => None
    case Some(i) =>
      var host := BeforeFirst(url[i + 2..], "//");
      BeforeFirstChar(host, ':');
      SplitsGiveHostId(url[i + 2..]);
      Some(BeforeFirst(host, ":"))
  }

  /** In `http://{id}:{d}` the first `//` is the one at index 5, and what
      follows it is `{id}:{d}`. */
  lemma SchemeSlashes(id: string, d: string)
    ensures Find("http://" + id + ":" + d, "//") == Some(5)
    ensures ("http://" + id + ":" + d)[7..] == id + ":" + d
  {
    var url := "http://" + id + ":" + d;
    assert url[..7] == "http://";
    assert OccursAt(url, "//", 5);
    forall j | 0 <= j < 5
      ensures !OccursAt(url, "//", j)
    {
      assert url[j + 1] == "http://"[j + 1];
    }
  }

  /** In a URL built by `SelfUrl` the first `//` is the one after `http:`,
      and what follows it is the id, a colon and the port. */
  lemma SelfUrlScheme(id: string, port: int)
    ensures Find(SelfUrl(id, port), "//") == Some(5)
    ensures SelfUrl(id, port)[7..] == id + ":" + IntToString(port)
  {
    SchemeSlashes(id, IntToString(port));
  }

  /** The spelling of an integer holds no `/`. */
  lemma NoSlashInNumber(i: int)
    ensures '/' !in IntToString(i)
  {
    var d := IntToString(i);
    if i < 0 {
      assert d == [d[0]] + d[1..];
    }
  }

  /** After the scheme, the host part of `id:port` is `id`. */
  lemma HostOfIdAndPort(id: string, d: string)
    requires ':' !in id && '/' !in id && '/' !in d
    ensures BeforeFirst(BeforeFirst(id + ":" + d, "//"), ":") == id
  {
    var rest := id + ":" + d;
    NoOccurrence(rest, "//");
    BeforeFirstAbsent(rest, "//");
    assert OccursAt(rest, ":", |id|);
    forall j | 0 <= j < |id|
      ensures !OccursAt(rest, ":", j)
    {
      assert rest[j] == id[j];
    }
    BeforeFirstAt(rest, ":", |id|);
    assert rest[..|id|] == id;
  }

  /** A node's own URL gives back its id, as long as the id holds no `:` and
      no `/`. */
  lemma ParseSelfUrl(id: string, port: int)
    requires ':' !in id && '/' !in id
    ensures ParseNodeId(SelfUrl(id, port)) == Some(id)
  {
    SelfUrlScheme(id, port);
    NoSlashInNumber(port);
    HostOfIdAndPort(id, IntToString(port));
  }

  /** `node_ids`: the id of every configured URL, in order; `None` when one of
      them has no `//`, which stops the node from starting. */
  function NodeIds(urls: seq<string>): (r: Option<seq<string>>)
    ensures r.Some? <==> forall i :: 0 <= i < |urls| ==> ParseNodeId(urls[i]).Some?
    ensures r.Some? ==> |r.value| == |urls|
    ensures r.Some? ==> forall i :: 0 <= i < |urls| ==> ParseNodeId(urls[i]) == Some(r.value[i])
  {
    if urls == [] then Some([])
    else
      assert forall i :: 0 <= i < |urls| - 1 ==> urls[1..][i] == urls[i + 1];
      match (ParseNodeId(urls[0]), NodeIds(urls[1..]))
      case (Some(id), Some(ids)) => Some([id] + ids)
      case _ => None
  }

  /** What a queue node holds from start-up on. */
  datatype Node = Node(nodeId: string, allNodes: seq<string>, ring: Hasher, connected: bool)

  /** Module start-up: settings read, Redis either reachable or not, and the
      ring built over the node ids with the default number of replicas. */
  function StartNode(h: HashFn, settings: Settings, redisUp: bool): (r: Option<Node>)
    ensures r.None? <==> NodeIds(settings.allNodes).None?
    ensures r.Some? ==> r.value.nodeId == settings.nodeId && r.value.allNodes == settings.allNodes
    ensures r.Some? ==> r.value.connected == redisUp && Valid(r.value.ring)
    ensures r.Some? ==> r.value.ring == New(h, NodeIds(settings.allNodes).value, DefaultReplicas)
  {
    match NodeIds(settings.allNodes)
    case None => None
    case Some(ids) =>
      NewValid(h, ids, DefaultReplicas);
      Some(Node(settings.nodeId, settings.allNodes, New(h, ids, DefaultReplicas), redisUp))
  }

  /** On a started node every queue has an owner, and the owner is the id of
      one of the configured URLs. */
  lemma OwnerIsConfiguredNode(h: HashFn, settings: Settings, redisUp: bool, q: string)
    requires |settings.allNodes| >= 1 && StartNode(h, settings, redisUp).Some?
    ensures GetNode(h, StartNode(h, settings, redisUp).value.ring, q).Some?
    ensures exists i :: (0 <= i < |settings.allNodes| &&
      ParseNodeId(settings.allNodes[i]) == GetNode(h, StartNode(h, settings, redisUp).value.ring, q))
  {
    var ids := NodeIds(settings.allNodes).value;
    OwnerIsAddedNode(h, ids, DefaultReplicas, q);
    var owner := GetNode(h, New(h, ids, DefaultReplicas), q).value;
    var i :| 0 <= i < |ids| && ids[i] == owner;
    assert ParseNodeId(settings.allNodes[i]) == Some(owner);
  }

  /** The first position whose URL contains `id` as a substring. */
  function FirstContaining(urls: seq<string>, id: string): (i: nat)
    ensures i <= |urls|
    ensures forall j :: 0 <= j < i ==> !Contains(urls[j], id)
    ensures i < |urls| ==> Contains(urls[i], id)
  {
    if urls == [] || Contains(urls[0], id) then 0 else 1 + FirstContaining(urls[1..], id)
  }

  /** `next((url for url in all_nodes if node_id in url), None)`: the first
      configured URL that contains the id anywhere in it. */
  function ForwardTarget(urls: seq<string>, id: string): (r: Option<string>)
    ensures r.None? <==> forall j :: 0 <= j < |urls| ==> !Contains(urls[j], id)
    ensures r.Some? ==> r.value in urls && Contains(r.value, id)
    ensures r.Some? ==> r.value == urls[FirstContaining(urls, id)]
  {
    var i := FirstContaining(urls, id);
    if i < |urls| then Some(urls[i]) else None
  }

  /** The first position whose URL parses to exactly `id`. */
  function FirstWithId(urls: seq<string>, id: string): (i: nat)
    ensures i <= |urls|
    ensures forall j :: 0 <= j < i ==> ParseNodeId(urls[j]) != Some(id)
    ensures i < |urls| ==> ParseNodeId(urls[i]) == Some(id)
  {
    if urls == [] || ParseNodeId(urls[0]) == Some(id) then 0
    else
      var k := FirstWithId(urls[1..], id);
      assert forall j :: 0 < j <= k ==> urls[j] == urls[1..][j - 1];
      1 + k
  }

  /** The forward target the routing evidently means: the first configured
      URL whose node id is exactly `id`, the same parse that put `id` on the
      ring. */
  function ForwardTargetExact(urls: seq<string>, id: string): (r: Option<string>)
    ensures r.None? <==> forall j :: 0 <= j < |urls| ==> ParseNodeId(urls[j]) != Some(id)
    ensures r.Some? ==> r.value in urls && ParseNodeId(r.value) == Some(id)
  {
    var i := FirstWithId(urls, id);
    if i < |urls| then Some(urls[i]) else None
  }

  /** The substring test goes wrong once one node id is a proper prefix of
      another listed before it: the request meant for `a` goes to `b`'s URL,
      while the exact match finds `a`'s. */
  lemma PrefixIdMisroutes(a: string, b: string, port: int)
    requires a < b && ':' !in b && '/' !in b
    ensures ForwardTarget([SelfUrl(b, port), SelfUrl(a, port)], a) == Some(SelfUrl(b, port))
    ensures ForwardTargetExact([SelfUrl(b, port), SelfUrl(a, port)], a) == Some(SelfUrl(a, port))
    ensures SelfUrl(b, port) != SelfUrl(a, port)
  {
    var ub, ua := SelfUrl(b, port), SelfUrl(a, port);
    var d := IntToString(port);
    assert ub[7..7 + |b|] == b;
    assert ub[7..7 + |a|] == a;
    assert OccursAt(ub, a, 7);
    ContainsIff(ub, a);
    assert ':' !in a && '/' !in a by {
      forall k | 0 <= k < |a|
        ensures a[k] == b[k]
      {
      }
    }
    ParseSelfUrl(b, port);
    ParseSelfUrl(a, port);
    assert |ub| != |ua|;
    var urls := [ub, ua];
    assert urls[1..] == [ua];
    assert FirstWithId([ua], a) == 0;
    assert FirstWithId(urls, a) == 1;
  }

  /** The concrete case: with `node10` listed before `node1`, requests meant
      for `node1` are sent to `http://node10:8000`. */
  lemma SubstringTargetMisroutes()
    ensures ForwardTarget(["http://node10:8000", "http://node1:8000"], "node1") == Some("http://node10:8000")
    ensures ForwardTargetExact(["http://node10:8000", "http://node1:8000"], "node1") == Some("http://node1:8000")
  {
    Spell8000();
    assert SelfUrl("node10", 8000) == "http://node10:8000";
    assert SelfUrl("node1", 8000) == "http://node1:8000";
    assert "node1" < "node10";
    PrefixIdMisroutes("node1", "node10", 8000);
  }

  /** Where containing the id and parsing to it coincide for every configured
      URL, the substring test and the exact match pick the same target. */
  lemma {:induction false} TargetsAgree(urls: seq<string>, id: string)
    requires forall j :: 0 <= j < |urls| ==> (Contains(urls[j], id) <==> ParseNodeId(urls[j]) == Some(id))
    ensures ForwardTarget(urls, id) == ForwardTargetExact(urls, id)
  {
    var i := FirstContaining(urls, id);
    var k := FirstWithId(urls, id);
  }

  /** What the upstream node answered: a JSON body with a status, a body that
      is not JSON, or no answer at all (`httpx.RequestError`). */
  datatype Upstream = Answered(body: string, status: int) | NotJson | Unreachable

  /** The upstream answer for each forwarded URL. */
  type Net = string -> Upstream

  /** The reply of a handler. The JSON bodies of successful local replies
      carry their fields; `Relayed` is an upstream answer passed on as it
      came; `Error` is an `HTTPException` or an unhandled exception. */
  datatype Reply =
    | Produced(queue: string, node: string, message: string)
    | Consumed(node: string, message: string, ackToken: string)
    | Acknowledged
    | Relayed(body: string, status: int)
    | Error(status: int)

  datatype Outcome = Outcome(reply: Reply, store: Store)

  /** The request path of the queue endpoints. */
  function Path(q: string): string {
    "/queue/" + q
  }

  /** The list that holds a queue's consumed, unacknowledged messages; the
      name is also the acknowledgement token. */
  function ProcessingList(q: string): (p: string)
    ensures p != q && q <= p
  {
    q + ":processing"
  }

  /** `forward_request(owner, request)`: no owner (the ring was empty) makes
      the `in` test raise `TypeError`, a 500; no URL containing the owner's
      id, or an empty one, is a 500; then the upstream answer is relayed,
      a body that is not JSON ends in a 500 and a transport error in a 503. */
  function Forward(node: Node, owner: Option<string>, path: string, net: Net): (r: Reply)
    ensures owner.None? ==> r == Error(500)
    ensures owner.Some? && ForwardTarget(node.allNodes, owner.value) in {None, Some("")} ==>
      r == Error(500)
    ensures r.Relayed? ==> (owner.Some? && ForwardTarget(node.allNodes, owner.value).Some? &&
      net(ForwardTarget(node.allNodes, owner.value).value + path) == Answered(r.body, r.status))
    ensures r.Error? ==> r.status == 500 || r.status == 503
  {
    match owner
    case None => Error(500)
    case Some(id) =>
      match ForwardTarget(node.allNodes, id)
      case None => Error(500)
      case Some(url) =>
        if url == "" then Error(500)
        else
          match net(url + path)
          case Answered(body, status) => Relayed(body, status)
          case NotJson => Error(500)
          case Unreachable => Error(503)
  }

  /** How each transport outcome at the target URL becomes the reply. */
  lemma ForwardRelays(node: Node, id: string, path: string, net: Net)
    requires ForwardTarget(node.allNodes, id).Some?
    requires ForwardTarget(node.allNodes, id).value != ""
    ensures var u := ForwardTarget(node.allNodes, id).value + path;
      && (net(u).Answered? ==> Forward(node, Some(id), path, net) == Relayed(net(u).body, net(u).status))
      && (net(u).NotJson? ==> Forward(node, Some(id), path, net) == Error(500))
      && (net(u).Unreachable? ==> Forward(node, Some(id), path, net) == Error(503))
  {
  }

  /** `POST /queue/{q}`: 503 without Redis; forwarded unless this node owns
      the queue; otherwise `LPUSH` the message and echo it. */
  function Produce(h: HashFn, node: Node, st: Store, q: string, message: string, net: Net, fault: bool)
    : (o: Outcome)
    requires Valid(node.ring)
    ensures !node.connected ==> o == Outcome(Error(503), st)
    ensures o.reply.Produced? <==>
      node.connected && GetNode(h, node.ring, q) == Some(node.nodeId) && !fault
    ensures o.reply.Produced? ==> o.reply == Produced(q, node.nodeId, message)
    ensures o.reply.Produced? ==> o.store == LPush(st, q, message)
    ensures node.connected && GetNode(h, node.ring, q) == Some(node.nodeId) && fault ==>
      o == Outcome(Error(500), st)
    ensures !o.reply.Produced? ==> o.store == st
  {
    if !node.connected then Outcome(Error(503), st)
    else
      var owner := GetNode(h, node.ring, q);
      if owner != Some(node.nodeId) then Outcome(Forward(node, owner, Path(q), net), st)
      else if fault then Outcome(Error(500), st)
      else Outcome(Produced(q, node.nodeId, message), LPush(st, q, message))
  }

  /** `GET /queue/{q}` as written: 503 without Redis; forwarded unless this
      node owns the queue; otherwise `RPOPLPUSH q "{q}:processing"`. Nothing
      to move, or a moved message that is the empty string, raises the 404
      inside the `try`, whose `except Exception` turns it into a 500. */
  function Consume(h: HashFn, node: Node, st: Store, q: string, net: Net, fault: bool): (o: Outcome)
    requires Valid(node.ring)
    ensures !node.connected ==> o == Outcome(Error(503), st)
    ensures o.reply.Consumed? ==> o.reply.ackToken == ProcessingList(q) && o.reply.node == node.nodeId
    ensures o.reply.Consumed? ==> o.reply.message != ""
    ensures o.reply.Error? ==> o.reply.status in {500, 503}
    ensures node.connected && GetNode(h, node.ring, q) == Some(node.nodeId) && fault ==>
      o == Outcome(Error(500), st)
  {
    if !node.connected then Outcome(Error(503), st)
    else
      var owner := GetNode(h, node.ring, q);
      if owner != Some(node.nodeId) then Outcome(Forward(node, owner, Path(q), net), st)
      else if fault then Outcome(Error(500), st)
      else
        var (popped, st1) := RPopLPush(st, q, ProcessingList(q));
        match popped
        case None => Outcome(Error(500), st)
        case Some(m) =>
          if m == "" then Outcome(Error(500), st1)
          else Outcome(Consumed(node.nodeId, m, ProcessingList(q)), st1)
  }

  /** `GET /queue/{q}` as evidently intended: the same, except that the 404
      for an empty queue reaches the client. */
  function ConsumeIntended(h: HashFn, node: Node, st: Store, q: string, net: Net, fault: bool)
    : (o: Outcome)
    requires Valid(node.ring)
    ensures !node.connected ==> o == Outcome(Error(503), st)
    ensures o.reply.Consumed? ==> o.reply.ackToken == ProcessingList(q) && o.reply.node == node.nodeId
    ensures o.reply.Consumed? ==> o.reply.message != ""
    ensures node.connected && GetNode(h, node.ring, q) == Some(node.nodeId) && fault ==>
      o == Outcome(Error(500), st)
  {
    if !node.connected then Outcome(Error(503), st)
    else
      var owner := GetNode(h, node.ring, q);
      if owner != Some(node.nodeId) then Outcome(Forward(node, owner, Path(q), net), st)
      else if fault then Outcome(Error(500), st)
      else
        var (popped, st1) := RPopLPush(st, q, ProcessingList(q));
        match popped
        case None => Outcome(Error(404), st)
        case Some(m) =>
          if m == "" then Outcome(Error(404), st1)
          else Outcome(Consumed(node.nodeId, m, ProcessingList(q)), st1)
  }

  /** `POST /queue/ack/{processingList}`: 503 without Redis; otherwise
      `LREM processingList 0 message` on the local Redis, with no ownership
      check, acknowledged whether or not anything matched. */
  function Acknowledge(node: Node, st: Store, processingList: string, message: string, fault: bool)
    : (o: Outcome)
    ensures !node.connected ==> o == Outcome(Error(503), st)
    ensures o.reply == Acknowledged <==> node.connected && !fault
    ensures o.reply.Error? ==> o.store == st
    ensures o.reply == Acknowledged ==> o.store == LRem(st, processingList, message)
    ensures node.connected && fault ==> o == Outcome(Error(500), st)
  {
    if !node.connected then Outcome(Error(503), st)
    else if fault then Outcome(Error(500), st)
    else Outcome(Acknowledged, LRem(st, processingList, message))
  }

  // ---- Properties of the handlers ----

  /** Without Redis every handler fails with 503 before routing or storage. */
  lemma NoRedisIs503(h: HashFn, node: Node, st: Store, q: string, message: string, net: Net, fault: bool)
    requires Valid(node.ring) && !node.connected
    ensures Produce(h, node, st, q, message, net, fault) == Outcome(Error(503), st)
    ensures Consume(h, node, st, q, net, fault) == Outcome(Error(503), st)
    ensures Acknowledge(node, st, q, message, fault) == Outcome(Error(503), st)
  {
  }

  /** On the owner, producing puts the message at the head of the queue's
      list and changes no other list. */
  lemma ProduceOnOwner(h: HashFn, node: Node, st: Store, q: string, message: string, net: Net)
    requires Valid(node.ring) && node.connected && GetNode(h, node.ring, q) == Some(node.nodeId)
    ensures var o := Produce(h, node, st, q, message, net, false);
      && o.reply == Produced(q, node.nodeId, message)
      && List(o.store, q) == [message] + List(st, q)
      && (forall other :: other != q ==> List(o.store, other) == List(st, other))
  {
  }

  /** On the owner, consuming a non-empty queue moves its oldest message, the
      tail, to the head of the processing list, hands it out with the
      processing list's name as token, and loses no message. */
  lemma ConsumeOnOwner(h: HashFn, node: Node, st: Store, q: string, net: Net)
    requires Valid(node.ring) && node.connected && GetNode(h, node.ring, q) == Some(node.nodeId)
    requires List(st, q) != []
    ensures var o := Consume(h, node, st, q, net, false);
      var l := List(st, q);
      var m := l[|l| - 1];
      && o.reply == (if m == "" then Error(500) else Consumed(node.nodeId, m, ProcessingList(q)))
      && List(o.store, q) == l[..|l| - 1]
      && List(o.store, ProcessingList(q)) == [m] + List(st, ProcessingList(q))
      && multiset(List(o.store, q)) + multiset(List(o.store, ProcessingList(q)))
         == multiset(List(st, q)) + multiset(List(st, ProcessingList(q)))
      && (forall other :: other != q && other != ProcessingList(q) ==> List(o.store, other) == List(st, other))
  {
    RPopLPushMoves(st, q, ProcessingList(q));
  }

  /** On the owner, consuming an empty queue changes nothing and answers 500,
      where the intended handler answers 404. */
  lemma ConsumeEmptyQueue(h: HashFn, node: Node, st: Store, q: string, net: Net)
    requires Valid(node.ring) && node.connected && GetNode(h, node.ring, q) == Some(node.nodeId)
    requires List(st, q) == []
    ensures Consume(h, node, st, q, net, false) == Outcome(Error(500), st)
    ensures ConsumeIntended(h, node, st, q, net, false) == Outcome(Error(404), st)
  {
  }

  /** The written and the intended consume differ only in the status of the
      replies that report an empty queue or an empty message. */
  lemma ConsumeVersionsAgree(h: HashFn, node: Node, st: Store, q: string, net: Net, fault: bool)
    requires Valid(node.ring)
    ensures var a := Consume(h, node, st, q, net, fault);
      var b := ConsumeIntended(h, node, st, q, net, fault);
      && a.store == b.store
      && (a.reply == b.reply || (a.reply == Error(500) && b.reply == Error(404)))
  {
    if node.connected && GetNode(h, node.ring, q) == Some(node.nodeId) && !fault {
      var r := RPopLPush(st, q, ProcessingList(q));
      assert Consume(h, node, st, q, net, fault).store == ConsumeIntended(h, node, st, q, net, fault).store;
    }
  }

  /** Acknowledging removes every copy of the message from the named list,
      keeps the other entries, touches no other list, and reports success
      even when nothing matched. */
  lemma AcknowledgeRemovesAll(node: Node, st: Store, processingList: string, message: string)
    requires node.connected
    ensures var o := Acknowledge(node, st, processingList, message, false);
      && o.reply == Acknowledged
      && message !in List(o.store, processingList)
      && List(o.store, processingList) == RemoveAll(List(st, processingList), message)
      && (forall m :: m != message ==>
            multiset(List(o.store, processingList))[m] == multiset(List(st, processingList))[m])
      && (forall other :: other != processingList ==> List(o.store, other) == List(st, other))
      && (message !in List(st, processingList) ==> List(o.store, processingList) == List(st, processingList))
  {
    if message !in List(st, processingList) {
      RemoveAllAbsent(List(st, processingList), message);
    }
  }

  /** When another node owns the queue, produce and consume leave the local
      lists untouched and answer with whatever forwarding gives. */
  lemma ForwardedLeavesStore(h: HashFn, node: Node, st: Store, q: string, message: string, net: Net, fault: bool)
    requires Valid(node.ring) && node.connected && GetNode(h, node.ring, q) != Some(node.nodeId)
    ensures Produce(h, node, st, q, message, net, fault)
      == Outcome(Forward(node, GetNode(h, node.ring, q), Path(q), net), st)
    ensures Consume(h, node, st, q, net, fault)
      == Outcome(Forward(node, GetNode(h, node.ring, q), Path(q), net), st)
  {
  }

  /** FIFO through the handlers: two messages produced on the owner come back
      from two consumes in the order they were produced. */
  lemma TwoMessagesFifo(h: HashFn, node: Node, st: Store, q: string, m1: string, m2: string, net: Net)
    requires Valid(node.ring) && node.connected && GetNode(h, node.ring, q) == Some(node.nodeId)
    requires List(st, q) == [] && m1 != "" && m2 != ""
    ensures var s1 := Produce(h, node, st, q, m1, net, false).store;
      var s2 := Produce(h, node, s1, q, m2, net, false).store;
      var c1 := Consume(h, node, s2, q, net, false);
      var c2 := Consume(h, node, c1.store, q, net, false);
      && c1.reply == Consumed(node.nodeId, m1, ProcessingList(q))
      && c2.reply == Consumed(node.nodeId, m2, ProcessingList(q))
  {
    var s1 := Produce(h, node, st, q, m1, net, false).store;
    var s2 := Produce(h, node, s1, q, m2, net, false).store;
    assert List(s2, q) == [m2, m1];
    ConsumeOnOwner(h, node, s2, q, net);
    var c1 := Consume(h, node, s2, q, net, false);
    assert List(c1.store, q) == [m2];
    ConsumeOnOwner(h, node, c1.store, q, net);
  }

  /** Produce, consume, then acknowledge with the token and the message: when
      the queue and its processing list started without that message, every
      list is back as it was. */
  lemma RoundTripRestores(h: HashFn, node: Node, st: Store, q: string, m: string, net: Net)
    requires Valid(node.ring) && node.connected && GetNode(h, node.ring, q) == Some(node.nodeId)
    requires List(st, q) == [] && m != "" && m !in List(st, ProcessingList(q))
    ensures var s1 := Produce(h, node, st, q, m, net, false).store;
      var c := Consume(h, node, s1, q, net, false);
      var a := Acknowledge(node, c.store, c.reply.ackToken, m, false);
      && c.reply == Consumed(node.nodeId, m, ProcessingList(q))
      && a.reply == Acknowledged
      && forall name :: List(a.store, name) == List(st, name)
  {
    var p := ProcessingList(q);
    var s1 := Produce(h, node, st, q, m, net, false).store;
    ConsumeOnOwner(h, node, s1, q, net);
    var c := Consume(h, node, s1, q, net, false);
    RemoveAllAppend([m], List(st, p), m);
    RemoveAllAbsent(List(st, p), m);
    assert RemoveAll([m], m) == [];
    assert List(c.store, p) == [m] + List(st, p);
  }

  /** The localhost URL of any port names the node "localhost". */
  lemma LocalUrlId(port: int)
    ensures ParseNodeId(LocalUrl(port)) == Some("localhost")
  {
    assert ':' !in "localhost" && '/' !in "localhost";
    ParseSelfUrl("localhost", port);
  }

  /** Forwarding to "localhost" over a one-entry localhost node list picks
      that entry. */
  lemma LocalUrlTarget(port: int)
    ensures ForwardTarget([LocalUrl(port)], "localhost") == Some(LocalUrl(port))
  {
    var url := LocalUrl(port);
    assert url[7..7 + 9] == "localhost";
    assert OccursAt(url, "localhost", 7);
    ContainsIff(url, "localhost");
    assert FirstContaining([url], "localhost") == 0;
  }

  /** A one-entry node list has the one id. */
  lemma NodeIdsOne(url: string, id: string)
    requires ParseNodeId(url) == Some(id)
    ensures NodeIds([url]) == Some([id])
  {
    var urls := [url];
    var none: seq<string> := [];
    assert urls[0] == url && urls[1..] == none;
    var ids: seq<string> := [id];
    assert NodeIds(none) == Some(none);
    assert ids + none == ids;
    assert NodeIds(urls) == Some(ids + none);
  }

  /** A node whose only configured URL is a localhost URL starts with a ring
      holding "localhost" alone, which therefore owns every queue. */
  lemma LocalNodeStarts(h: HashFn, settings: Settings, redisUp: bool, q: string)
    requires settings.allNodes == [LocalUrl(settings.port)]
    ensures StartNode(h, settings, redisUp).Some?
    ensures StartNode(h, settings, redisUp).value.ring == New(h, ["localhost"], DefaultReplicas)
    ensures GetNode(h, StartNode(h, settings, redisUp).value.ring, q) == Some("localhost")
  {
    LocalUrlId(settings.port);
    NodeIdsOne(LocalUrl(settings.port), "localhost");
    OwnerIsAddedNode(h, ["localhost"], DefaultReplicas, q);
  }

  /** With an empty environment the only node URL is the node's own
      localhost URL (`http://localhost:8000`, see `Config.DefaultUrls`), so
      the ring holds the single id "localhost" while the node calls itself
      "default_node": every produce and consume is forwarded back to the
      node itself. */
  lemma DefaultConfigForwardsToItself(h: HashFn, st: Store, q: string, message: string, net: Net, fault: bool)
    ensures Load(map[]).Success?
    ensures StartNode(h, Load(map[]).value, true).Some?
    ensures var node := StartNode(h, Load(map[]).value, true).value;
      && node.nodeId == DefaultNodeId
      && GetNode(h, node.ring, q) == Some("localhost")
      && ForwardTarget(node.allNodes, "localhost") == Some(LocalUrl(8000))
      && Produce(h, node, st, q, message, net, fault)
         == Outcome(Forward(node, Some("localhost"), Path(q), net), st)
      && Consume(h, node, st, q, net, fault)
         == Outcome(Forward(node, Some("localhost"), Path(q), net), st)
  {
    Defaults();
    var settings := Load(map[]).value;
    LocalNodeStarts(h, settings, true, q);
    LocalUrlTarget(8000);
    var node := StartNode(h, settings, true).value;
    assert |"localhost"| != |DefaultNodeId|;
    assert GetNode(h, node.ring, q) != Some(node.nodeId);
  }
}

=== FILE: redis_lists.dfy ===
/** The part of Redis the queue handlers use: named lists of strings, with
    `LPUSH`, `RPOPLPUSH` and `LREM key 0 value`. A list is kept head first,
    so index 0 is the element `LPUSH` adds and the last index is the element
    `RPOP` takes. Redis deletes a list once it is empty, so a name that is
    absent from the store reads as the empty list. */
module RedisLists {
  import opened Wrappers
  import opened Seqs

  type Store = map<string, seq<string>>

  /** Redis never keeps an empty list under a name. */
  predicate NoEmptyLists(st: Store) {
    forall k :: k in st ==> st[k] != []
  }

  /** The list stored under `name`; the empty list when there is none. */
  function List(st: Store, name: string): seq<string> {
    if name in st then st[name] else []
  }

  /** Store `l` under `name`, dropping the name when `l` is empty. */
  function Put(st: Store, name: string, l: seq<string>): (r: Store)
    ensures List(r, name) == l
    ensures forall other :: other != name ==> List(r, other) == List(st, other)
    ensures NoEmptyLists(st) ==> NoEmptyLists(r)
  {
    if l == [] then st - {name} else st[name := l]
  }

  /** `LPUSH name value`: `value` becomes the new head of the list. */
  function LPush(st: Store, name: string, value: string): (r: Store)
    ensures List(r, name) == [value] + List(st, name)
    ensures forall other :: other != name ==> List(r, other) == List(st, other)
    ensures NoEmptyLists(st) ==> NoEmptyLists(r)
  {
    Put(st, name, [value] + List(st, name))
  }

  /** `RPOPLPUSH src dst`: take the tail of `src` and push it onto the head of
      `dst`, as one step; nothing happens, and nothing is returned, when `src`
      is empty. With `src == dst` the list rotates. */
  function RPopLPush(st: Store, src: string, dst: string): (r: (Option<string>, Store))
    ensures List(st, src) == [] <==> r.0.None?
    ensures r.0.None? ==> r.1 == st
    ensures r.0.Some? ==> r.0.value == List(st, src)[|List(st, src)| - 1]
    ensures forall other :: other != src && other != dst ==> List(r.1, other) == List(st, other)
    ensures NoEmptyLists(st) ==> NoEmptyLists(r.1)
  {
    var l := List(st, src);
    if l == [] then (None, st)
    else
      var v := l[|l| - 1];
      var st1 := Put(st, src, l[..|l| - 1]);
      (Some(v), Put(st1, dst, [v] + List(st1, dst)))
  }

  /** Moving between two different lists: the source loses its tail, which
      becomes the head of the destination, and the two lists together hold
      the same elements as before. */
  lemma RPopLPushMoves(st: Store, src: string, dst: string)
    requires src != dst && List(st, src) != []
    ensures var l := List(st, src);
      && RPopLPush(st, src, dst).0 == Some(l[|l| - 1])
      && List(RPopLPush(st, src, dst).1, src) == l[..|l| - 1]
      && List(RPopLPush(st, src, dst).1, dst) == [l[|l| - 1]] + List(st, dst)
    ensures multiset(List(RPopLPush(st, src, dst).1, src)) + multiset(List(RPopLPush(st, src, dst).1, dst))
      == multiset(List(st, src)) + multiset(List(st, dst))
  {
    var l := List(st, src);
    assert l == l[..|l| - 1] + [l[|l| - 1]];
  }

  /** `LREM name 0 value`: remove every element equal to `value`. */
  function LRem(st: Store, name: string, value: string): (r: Store)
    ensures List(r, name) == RemoveAll(List(st, name), value)
    ensures forall other :: other != name ==> List(r, other) == List(st, other)
    ensures NoEmptyLists(st) ==> NoEmptyLists(r)
  {
    Put(st, name, RemoveAll(List(st, name), value))
  }

  /** `LPUSH` each of `values` in turn. */
  function LPushAll(st: Store, name: string, values: seq<string>): (r: Store)
    decreases |values|
  {
    if values == [] then st
    else LPushAll(LPush(st, name, values[0]), name, values[1..])
  }

  /** Pushing values one by one leaves them in the list newest first, in front
      of what was there; no other list changes. */
  lemma {:induction false} LPushAllOrder(st: Store, name: string, values: seq<string>)
    ensures List(LPushAll(st, name, values), name) == Reverse(values) + List(st, name)
    ensures forall other :: other != name ==>
      List(LPushAll(st, name, values), other) == List(st, other)
    decreases |values|
  {
    if values != [] {
      var st1 := LPush(st, name, values[0]);
      LPushAllOrder(st1, name, values[1..]);
    }
  }

  /** What `RPOPLPUSH src dst` returns when issued `n` times, in order. Once
      `src` is empty the calls return nothing, and nothing more is recorded. */
  function Drain(st: Store, src: string, dst: string, n: nat): seq<string>
    decreases n
  {
    var l := List(st, src);
    if n == 0 || l == [] then []
    else [l[|l| - 1]] + Drain(RPopLPush(st, src, dst).1, src, dst, n - 1)
  }

  /** The values `n` pops from the tail of `l` return, in order. */
  function PopTails(l: seq<string>, n: nat): seq<string>
    decreases n
  {
    if n == 0 || l == [] then [] else [l[|l| - 1]] + PopTails(l[..|l| - 1], n - 1)
  }

  /** Draining `src` into a different list returns what popping the tail of
      `src` alone returns: the destination does not matter. */
  lemma {:induction false} DrainPopsTails(st: Store, src: string, dst: string, n: nat)
    requires src != dst
    ensures Drain(st, src, dst, n) == PopTails(List(st, src), n)
    decreases n
  {
    var l := List(st, src);
    if n > 0 && l != [] {
      var st1 := RPopLPush(st, src, dst).1;
      RPopLPushMoves(st, src, dst);
      DrainPopsTails(st1, src, dst, n - 1);
      assert Drain(st, src, dst, n) == [l[|l| - 1]] + Drain(st1, src, dst, n - 1);
    }
  }

  /** Popping `n` tails returns the last `n` elements, last first. */
  lemma {:induction false} PopTailsFromEnd(l: seq<string>, n: nat)
    requires n <= |l|
    ensures |PopTails(l, n)| == n
    ensures forall i :: 0 <= i < n ==> PopTails(l, n)[i] == l[|l| - 1 - i]
    decreases n
  {
    if n > 0 {
      var l1 := l[..|l| - 1];
      PopTailsFromEnd(l1, n - 1);
      var d, d1 := PopTails(l, n), PopTails(l1, n - 1);
      assert d == [l[|l| - 1]] + d1;
      forall i | 0 <= i < n
        ensures d[i] == l[|l| - 1 - i]
      {
        if i > 0 {
          assert d[i] == d1[i - 1] == l1[|l1| - 1 - (i - 1)];
        }
      }
    }
  }

  /** FIFO: messages pushed one by one onto an empty list come back out of
      `RPOPLPUSH` in the order they were pushed. */
  lemma Fifo(st: Store, src: string, dst: string, values: seq<string>)
    requires src != dst && List(st, src) == []
    ensures Drain(LPushAll(st, src, values), src, dst, |values|) == values
  {
    var pushed := LPushAll(st, src, values);
    LPushAllOrder(st, src, values);
    assert List(pushed, src) == Reverse(values);
    DrainPopsTails(pushed, src, dst, |values|);
    PopTailsFromEnd(Reverse(values), |values|);
  }
}

=== FILE: seqs.dfy ===
/** List helpers used by several parts of the model: filtering out one value
    (Redis `LREM key 0 value` and the `peers` comprehension), reversal and
    ascending order. */
module Seqs {

  /** Every element of `s` except those equal to `x`, in their original order. */
  function RemoveAll<T(==,!new)>(s: seq<T>, x: T): (r: seq<T>)
    ensures |r| <= |s|
    ensures x !in r
    ensures forall y :: y != x ==> multiset(r)[y] == multiset(s)[y]
    ensures forall y :: y in r <==> y in s && y != x
  {
    if s == [] then []
    else
      assert s == [s[0]] + s[1..];
      if s[0] == x then RemoveAll(s[1..], x) else [s[0]] + RemoveAll(s[1..], x)
  }

  /** Removal is done element by element, so it distributes over concatenation:
      the survivors keep their relative order. */
  lemma {:induction false} RemoveAllAppend<T(!new)>(a: seq<T>, b: seq<T>, x: T)
    ensures RemoveAll(a + b, x) == RemoveAll(a, x) + RemoveAll(b, x)
  {
    if a == [] {
      assert a + b == b;
    } else {
      assert (a + b)[1..] == a[1..] + b;
      RemoveAllAppend(a[1..], b, x);
    }
  }

  /** A list that does not hold `x` is left as it is. */
  lemma {:induction false} RemoveAllAbsent<T(!new)>(s: seq<T>, x: T)
    requires x !in s
    ensures RemoveAll(s, x) == s
  {
    if s != [] {
      RemoveAllAbsent(s[1..], x);
    }
  }

  /** `s` read from its last element to its first. */
  function Reverse<T>(s: seq<T>): (r: seq<T>)
    ensures |r| == |s|
    ensures forall i :: 0 <= i < |s| ==> r[i] == s[|s| - 1 - i]
  {
    if s == [] then [] else Reverse(s[1..]) + [s[0]]
  }

  /** Ascending order, duplicates allowed. */
  predicate Sorted(s: seq<int>) {
    forall i, j :: 0 <= i < j < |s| ==> s[i] <= s[j]
  }

  /** Ascending order and multiset contents determine a list: so every
      correct sort of the same elements yields the same list. */
  lemma {:induction false} SortedUnique(a: seq<int>, b: seq<int>)
    requires Sorted(a) && Sorted(b)
    requires multiset(a) == multiset(b)
    ensures a == b
  {
    if a != [] {
      assert |b| == |a| by {
        assert |multiset(a)| == |a| && |multiset(b)| == |b|;
      }
      assert a[0] in multiset(b);
      assert b[0] in multiset(a);
      assert a[0] == b[0] by {
        var i :| 0 <= i < |b| && b[i] == a[0];
        var j :| 0 <= j < |a| && a[j] == b[0];
        assert b[0] <= b[i] && a[0] <= a[j];
      }
      assert a == [a[0]] + a[1..];
      assert b == [b[0]] + b[1..];
      assert multiset(a) == multiset{a[0]} + multiset(a[1..]);
      assert multiset(b) == multiset{b[0]} + multiset(b[1..]);
      assert multiset(a[1..]) == multiset(a) - multiset{a[0]};
      assert multiset(b[1..]) == multiset(b) - multiset{b[0]};
      SortedUnique(a[1..], b[1..]);
    }
  }
}

=== FILE: strings.dfy ===
/** The few Python `str` operations the core relies on, over `seq<char>`:
    `isspace`/`strip`, `split` on one character, the `in` substring test,
    the leftmost-occurrence search behind `split(sep)[k]`, and the decimal
    conversions `str(int)` and `int(str)`. */
module Strings {
  import opened Wrappers

  /** Python's `str.isspace()` for one character: the ASCII whitespace
      characters, the information separators 0x1C-0x1F and the Unicode
      space separators. */
  predicate IsSpace(c: char) {
    || c == ' '
    || ('\U{9}' <= c <= '\U{D}')
    || ('\U{1C}' <= c <= '\U{1F}')
    || c == '\U{85}' || c == '\U{A0}' || c == '\U{1680}'
    || ('\U{2000}' <= c <= '\U{200A}')
    || c == '\U{2028}' || c == '\U{2029}' || c == '\U{202F}' || c == '\U{205F}'
    || c == '\U{3000}'
  }

  /** `s` without its leading whitespace. */
  function TrimLeft(s: string): (r: string)
    ensures |r| <= |s| && r == s[|s| - |r|..]
    ensures forall k :: 0 <= k < |s| - |r| ==> IsSpace(s[k])
    ensures r == [] || !IsSpace(r[0])
  {
    if s != [] && IsSpace(s[0]) then TrimLeft(s[1..]) else s
  }

  /** `s` without its trailing whitespace. */
  function TrimRight(s: string): (r: string)
    ensures |r| <= |s| && r == s[..|r|]
    ensures forall k :: |r| <= k < |s| ==> IsSpace(s[k])
    ensures r == [] || !IsSpace(r[|r| - 1])
  {
    if s != [] && IsSpace(s[|s| - 1]) then TrimRight(s[..|s| - 1]) else s
  }

  /** `s` neither starts nor ends with whitespace. */
  predicate Stripped(s: string) {
    s == [] || (!IsSpace(s[0]) && !IsSpace(s[|s| - 1]))
  }

  /** `r` is the slice of `s` at `i` and everything around it is whitespace. */
  predicate Trimmed(s: string, r: string, i: nat) {
    && i + |r| <= |s| && r == s[i..i + |r|]
    && (forall k :: 0 <= k < i ==> IsSpace(s[k]))
    && (forall k :: i + |r| <= k < |s| ==> IsSpace(s[k]))
  }

  /** Python's `s.strip()`: what is left after dropping whitespace at both
      ends (`StripSlice` says where in `s` it sits, `StripStripped` that no
      whitespace is left at its ends). */
  function Strip(s: string): (r: string)
    ensures |r| <= |s|
  {
    TrimRight(TrimLeft(s))
  }

  /** `Strip(s)` is the slice of `s` at `i`, with only whitespace around it. */
  lemma StripSlice(s: string) returns (i: nat)
    ensures Trimmed(s, Strip(s), i)
  {
    i := |s| - |TrimLeft(s)|;
  }

  /** `Strip(s)` neither starts nor ends with whitespace. */
  lemma StripStripped(s: string)
    ensures Stripped(Strip(s))
  {
  }

  /** Stripping only removes characters: whatever `Strip(s)` holds, `s` holds. */
  lemma StripKeeps(s: string, c: char)
    requires c in Strip(s)
    ensures c in s
  {
    var r := Strip(s);
    var i := StripSlice(s);
    var k :| 0 <= k < |r| && r[k] == c;
    assert r[k] == s[i + k];
  }

  /** Stripping a string with no whitespace at either end changes nothing,
      so `strip` is idempotent. */
  lemma StripNoEdges(s: string)
    requires Stripped(s)
    ensures Strip(s) == s
  {
  }

  lemma StripIdempotent(s: string)
    ensures Strip(Strip(s)) == Strip(s)
  {
    StripStripped(s);
    StripNoEdges(Strip(s));
  }

  /** The inverse of `Split`: the pieces glued together with `sep` between
      neighbours, as Python's `sep.join(parts)`. */
  function Join(parts: seq<string>, sep: char): string
  {
    if |parts| == 0 then []
    else if |parts| == 1 then parts[0]
    else parts[0] + [sep] + Join(parts[1..], sep)
  }

  /** Joining a piece in front of at least one other piece puts a separator
      between them. */
  lemma JoinCons(p: string, rest: seq<string>, sep: char)
    requires |rest| >= 1
    ensures Join([p] + rest, sep) == p + [sep] + Join(rest, sep)
  {
    assert ([p] + rest)[1..] == rest;
  }

  /** Growing the first piece by one character grows the joined text by it. */
  lemma JoinGrowHead(c: char, rest: seq<string>, sep: char)
    requires |rest| >= 1
    ensures Join([[c] + rest[0]] + rest[1..], sep) == [c] + Join(rest, sep)
  {
    if |rest| > 1 {
      JoinCons([c] + rest[0], rest[1..], sep);
      JoinCons(rest[0], rest[1..], sep);
      assert [rest[0]] + rest[1..] == rest;
    }
  }

  /** Python's `s.split(sep)` for a one-character separator: the pieces
      between consecutive separators, with empty pieces kept. There is always
      one piece more than there are separators, so even `""` gives `[""]`. */
  function Split(s: string, sep: char): (r: seq<string>)
    ensures |r| == multiset(s)[sep] + 1
    ensures forall i :: 0 <= i < |r| ==> sep !in r[i]
    ensures Join(r, sep) == s
  {
    if s == [] then [[]]
    else
      var rest := Split(s[1..], sep);
      assert s == [s[0]] + s[1..];
      assert multiset(s) == multiset{s[0]} + multiset(s[1..]);
      if s[0] == sep then
        JoinCons([], rest, sep);
        [[]] + rest
      else
        JoinGrowHead(s[0], rest, sep);
        [[s[0]] + rest[0]] + rest[1..]
  }

  /** A separator-free piece splits to itself. */
  lemma {:induction false} SplitAlone(p: string, sep: char)
    requires sep !in p
    ensures Split(p, sep) == [p]
  {
    if p != [] {
      assert p[1..] + [] == p[1..];
      SplitAlone(p[1..], sep);
      assert [p[0]] + p[1..] == p;
    }
  }

  /** Splitting text that starts with a separator-free piece `p`. */
  lemma {:induction false} SplitPiece(p: string, sep: char, rest: string)
    requires sep !in p
    ensures Split(p, sep) == [p]
    ensures Split(p + [sep] + rest, sep) == [p] + Split(rest, sep)
  {
    SplitAlone(p, sep);
    var s := p + [sep] + rest;
    if p != [] {
      assert s[0] == p[0] && s[1..] == p[1..] + [sep] + rest;
      SplitPiece(p[1..], sep, rest);
      var tail := Split(s[1..], sep);
      assert tail[0] == p[1..] && tail[1..] == Split(rest, sep);
      assert [p[0]] + p[1..] == p;
    } else {
      assert s == [sep] + rest;
      assert s[1..] == rest;
    }
  }

  /** Split undoes Join whenever no piece contains the separator. */
  lemma {:induction false} SplitJoin(parts: seq<string>, sep: char)
    requires |parts| >= 1
    requires forall i :: 0 <= i < |parts| ==> sep !in parts[i]
    ensures Split(Join(parts, sep), sep) == parts
  {
    SplitPiece(parts[0], sep, []);
    if |parts| > 1 {
      SplitJoin(parts[1..], sep);
      SplitPiece(parts[0], sep, Join(parts[1..], sep));
      assert [parts[0]] + parts[1..] == parts;
    }
  }

  /** `sub` occurs in `s` starting at position `i`. */
  predicate OccursAt(s: string, sub: string, i: nat) {
    i + |sub| <= |s| && s[i..i + |sub|] == sub
  }

  /** Python's `sub in s`; the empty string occurs in every string. */
  predicate Contains(s: string, sub: string)
    decreases |s|
  {
    sub <= s || (s != [] && Contains(s[1..], sub))
  }

  /** `Contains` holds exactly when `sub` occurs at some position of `s`. */
  lemma {:induction false} ContainsIff(s: string, sub: string)
    ensures Contains(s, sub) <==> exists i :: 0 <= i <= |s| && OccursAt(s, sub, i)
    decreases |s|
  {
    if s != [] {
      ContainsIff(s[1..], sub);
      if exists i :: 0 <= i <= |s| && OccursAt(s, sub, i) {
        var i :| 0 <= i <= |s| && OccursAt(s, sub, i);
        if i > 0 {
          assert OccursAt(s[1..], sub, i - 1);
        }
      }
      if Contains(s[1..], sub) {
        var i :| 0 <= i <= |s[1..]| && OccursAt(s[1..], sub, i);
        assert s[i + 1..i + 1 + |sub|] == s[1..][i..i + |sub|];
        assert OccursAt(s, sub, i + 1);
      }
    }
    if sub <= s {
      assert OccursAt(s, sub, 0);
    }
  }

  /** The leftmost position, from `from` on, at which `pat` occurs in `s`. */
  function FindFrom(s: string, pat: string, from: nat): (r: Option<nat>)
    requires from <= |s|
    ensures r.Some? ==> from <= r.value <= |s| && OccursAt(s, pat, r.value)
    ensures r.Some? ==> forall j :: from <= j < r.value ==> !OccursAt(s, pat, j)
    ensures r.None? ==> forall j :: from <= j <= |s| ==> !OccursAt(s, pat, j)
    decreases |s| - from
  {
    if OccursAt(s, pat, from) then Some(from)
    else if from == |s| then None
    else FindFrom(s, pat, from + 1)
  }

  /** The leftmost occurrence of `pat` in `s`, which is where Python's
      `s.split(pat)` makes its first cut. */
  function Find(s: string, pat: string): (r: Option<nat>)
    ensures r.Some? ==> r.value <= |s| && OccursAt(s, pat, r.value)
    ensures r.Some? ==> forall j :: 0 <= j < r.value ==> !OccursAt(s, pat, j)
    ensures r.None? <==> forall j :: 0 <= j <= |s| ==> !OccursAt(s, pat, j)
  {
    FindFrom(s, pat, 0)
  }

  /** Python's `s.split(pat)[0]`: the text before the first occurrence of the
      non-empty separator `pat`, or all of `s` when there is none. */
  function BeforeFirst(s: string, pat: string): (r: string)
    requires |pat| > 0
    ensures r <= s
    ensures forall j :: 0 <= j < |r| ==> !OccursAt(s, pat, j)
    ensures |r| < |s| ==> OccursAt(s, pat, |r|)
  {
    match Find(s, pat)
    case Some(k) => s[..k]
    case None => s
  }

  /** Without any occurrence of `pat`, `BeforeFirst` keeps all of `s`. */
  lemma BeforeFirstAbsent(s: string, pat: string)
    requires |pat| > 0
    requires forall j :: 0 <= j <= |s| ==> !OccursAt(s, pat, j)
    ensures BeforeFirst(s, pat) == s
  {
  }

  /** With the first occurrence of `pat` at `k`, `BeforeFirst` is `s[..k]`. */
  lemma BeforeFirstAt(s: string, pat: string, k: nat)
    requires |pat| > 0 && OccursAt(s, pat, k)
    requires forall j :: 0 <= j < k ==> !OccursAt(s, pat, j)
    ensures BeforeFirst(s, pat) == s[..k]
  {
  }

  /** The text before the first `c` holds no `c`. */
  lemma BeforeFirstChar(s: string, c: char)
    ensures c !in BeforeFirst(s, [c])
  {
    var r := BeforeFirst(s, [c]);
    forall j | 0 <= j < |r|
      ensures r[j] != c
    {
      assert !OccursAt(s, [c], j);
      assert s[j..j + 1] == [s[j]];
    }
  }

  /** A string without the first character of `pat` holds no occurrence of it. */
  lemma NoOccurrence(s: string, pat: string)
    requires |pat| > 0 && pat[0] !in s
    ensures forall j :: 0 <= j <= |s| ==> !OccursAt(s, pat, j)
  {
    forall j | 0 <= j <= |s|
      ensures !OccursAt(s, pat, j)
    {
      if j < |s| {
        assert s[j] in s;
      }
    }
  }

  predicate IsDigit(c: char) {
    '0' <= c <= '9'
  }

  predicate AllDigits(s: string) {
    forall i :: 0 <= i < |s| ==> IsDigit(s[i])
  }

  /** The decimal value of a string of ASCII digits, leading zeros allowed. */
  function DigitsValue(s: string): nat
    requires AllDigits(s)
  {
    if s == [] then 0
    else DigitsValue(s[..|s| - 1]) * 10 + (s[|s| - 1] as int - '0' as int)
  }

  /** Python's `str(n)` for a natural number: the shortest decimal spelling,
      which reads back as `n`. */
  function NatToString(n: nat): (r: string)
    ensures |r| >= 1 && AllDigits(r)
    ensures r[0] != '0' || n == 0
    ensures DigitsValue(r) == n
  {
    var last := ['0' + ((n % 10) as char)];
    if n < 10 then last
    else
      var r := NatToString(n / 10) + last;
      assert r[..|r| - 1] == NatToString(n / 10);
      r
  }

  /** Python's `str(i)` for an integer: a minus sign before negative values. */
  function IntToString(i: int): (r: string)
    ensures |r| >= 1
    ensures i >= 0 ==> AllDigits(r)
    ensures i < 0 ==> r[0] == '-' && AllDigits(r[1..])
  {
    if i < 0 then "-" + NatToString(-i) else NatToString(i)
  }

  /** The spelling of an integer has no whitespace at either end. */
  lemma IntToStringStripped(i: int)
    ensures Stripped(IntToString(i))
  {
    var r := IntToString(i);
    assert IsDigit(r[|r| - 1]);
  }

  /** The most digits `int()` converts in base 10 (`sys.int_info.default_max_str_digits`);
      longer text raises `ValueError`. */
  const MaxStrDigits := 4300

  /** An optional sign followed by one to `MaxStrDigits` ASCII digits, read as
      an integer. */
  function ParseSigned(t: string): (r: Option<int>)
    ensures r.Some? <==>
      || (|t| >= 2 && (t[0] == '-' || t[0] == '+') && AllDigits(t[1..]) && |t| - 1 <= MaxStrDigits)
      || (1 <= |t| <= MaxStrDigits && AllDigits(t))
    ensures r.Some? && AllDigits(t) ==> r.value == DigitsValue(t)
    ensures r.Some? && |t| >= 1 && t[0] == '-' ==> r.value + DigitsValue(t[1..]) == 0
    ensures r.Some? && |t| >= 1 && t[0] == '+' ==> r.value == DigitsValue(t[1..])
  {
    if |t| >= 2 && (t[0] == '-' || t[0] == '+') && AllDigits(t[1..]) then
      if |t| - 1 > MaxStrDigits then None
      else
        var v: int := DigitsValue(t[1..]);
        Some(if t[0] == '-' then -v else v)
    else if |t| >= 1 && AllDigits(t) then
      if |t| > MaxStrDigits then None else Some(DigitsValue(t))
    else None
  }

  /** The whitespace `int()` skips around a number: the ASCII whitespace and,
      once mapped to a plain space, the non-ASCII whitespace, but not the
      information separators 0x1C-0x1F that `isspace()` counts. */
  predicate IntSpace(c: char) {
    IsSpace(c) && !('\U{1C}' <= c <= '\U{1F}')
  }

  /** `s` without the leading whitespace `int()` skips. */
  function IntTrimLeft(s: string): (r: string)
    ensures |r| <= |s| && r == s[|s| - |r|..]
    ensures forall k :: 0 <= k < |s| - |r| ==> IntSpace(s[k])
    ensures r == [] || !IntSpace(r[0])
  {
    if s != [] && IntSpace(s[0]) then IntTrimLeft(s[1..]) else s
  }

  /** `s` without the trailing whitespace `int()` skips. */
  function IntTrimRight(s: string): (r: string)
    ensures |r| <= |s| && r == s[..|r|]
    ensures forall k :: |r| <= k < |s| ==> IntSpace(s[k])
    ensures r == [] || !IntSpace(r[|r| - 1])
  {
    if s != [] && IntSpace(s[|s| - 1]) then IntTrimRight(s[..|s| - 1]) else s
  }

  /** Python's `int(s)` on text: the whitespace `int()` skips is ignored at
      both ends, then an optional sign and one to 4300 ASCII digits; anything
      else raises `ValueError`, modelled as `None`. */
  function ParseInt(s: string): (r: Option<int>)
    ensures r.Some? <==> ParseSigned(IntTrimRight(IntTrimLeft(s))).Some?
  {
    ParseSigned(IntTrimRight(IntTrimLeft(s)))
  }

  /** Whitespace `int()` skips in front of text that starts otherwise is
      dropped, and nothing more. */
  lemma {:induction false} IntTrimLeftPad(pre: string, u: string)
    requires forall k :: 0 <= k < |pre| ==> IntSpace(pre[k])
    requires u == [] || !IntSpace(u[0])
    ensures IntTrimLeft(pre + u) == u
    decreases |pre|
  {
    if pre == [] {
      assert pre + u == u;
    } else {
      assert (pre + u)[0] == pre[0];
      assert (pre + u)[1..] == pre[1..] + u;
      IntTrimLeftPad(pre[1..], u);
    }
  }

  /** Whitespace `int()` skips after text that ends otherwise is dropped, and
      nothing more. */
  lemma {:induction false} IntTrimRightPad(u: string, post: string)
    requires forall k :: 0 <= k < |post| ==> IntSpace(post[k])
    requires u == [] || !IntSpace(u[|u| - 1])
    ensures IntTrimRight(u + post) == u
    decreases |post|
  {
    if post == [] {
      assert u + post == u;
    } else {
      var s := u + post;
      assert s[|s| - 1] == post[|post| - 1];
      assert s[..|s| - 1] == u + post[..|post| - 1];
      IntTrimRightPad(u, post[..|post| - 1]);
    }
  }

  /** `int()` reads the number between any whitespace it skips: padding a
      text that neither starts nor ends with such whitespace leaves the
      integer (or the `ValueError`) as it was. */
  lemma ParseIntIgnoresPadding(pre: string, t: string, post: string)
    requires forall k :: 0 <= k < |pre| ==> IntSpace(pre[k])
    requires forall k :: 0 <= k < |post| ==> IntSpace(post[k])
    requires t == [] || (!IntSpace(t[0]) && !IntSpace(t[|t| - 1]))
    ensures ParseInt(pre + t + post) == ParseSigned(t)
  {
    if t == [] {
      var pad := pre + post;
      assert pre + t + post == pad + t;
      assert forall k :: 0 <= k < |pad| ==> IntSpace(pad[k]) by {
        forall k | 0 <= k < |pad|
          ensures IntSpace(pad[k])
        {
          if k >= |pre| {
            assert pad[k] == post[k - |pre|];
          }
        }
      }
      IntTrimLeftPad(pad, t);
    } else {
      assert pre + t + post == pre + (t + post);
      assert (t + post)[0] == t[0];
      IntTrimLeftPad(pre, t + post);
      IntTrimRightPad(t, post);
    }
  }

  /** Text that starts with an information separator is not a number to
      `int()`, though `strip()` would remove the separator. */
  lemma ParseIntRejectsSeparator(c: char, s: string)
    requires '\U{1C}' <= c <= '\U{1F}'
    ensures IsSpace(c)
    ensures ParseInt([c] + s) == None
  {
    var t := [c] + s;
    assert t[0] == c && !IntSpace(c);
    IntTrimKeepsHead(t);
    var u := IntTrimRight(IntTrimLeft(t));
    assert u[0] == c && !IsDigit(c) && c != '-' && c != '+';
    assert !AllDigits(u);
  }

  /** Text that starts with a character `int()` does not skip keeps that
      character at the front once trimmed. */
  lemma IntTrimKeepsHead(t: string)
    requires t != [] && !IntSpace(t[0])
    ensures IntTrimLeft(t) == t
    ensures IntTrimRight(t) != [] && IntTrimRight(t)[0] == t[0]
  {
    assert IntTrimRight(t) == t[..|IntTrimRight(t)|];
  }

  /** Text without `int()` whitespace at its ends is read as it stands. */
  lemma IntTrimNoEdges(s: string)
    requires Stripped(s)
    ensures IntTrimRight(IntTrimLeft(s)) == s
  {
  }

  /** The decimal spelling of a natural number reads back as that number. */
  lemma ParseNatToString(n: nat)
    requires |NatToString(n)| <= MaxStrDigits
    ensures ParseSigned(NatToString(n)) == Some(n)
  {
    var d := NatToString(n);
    assert IsDigit(d[0]);
  }

  /** A minus sign before the spelling of `n` reads back as `-n`. */
  lemma ParseNegToString(n: nat)
    requires |NatToString(n)| <= MaxStrDigits
    ensures ParseSigned("-" + NatToString(n)) == Some(-(n as int))
  {
    var d := NatToString(n);
    var r := "-" + d;
    assert r[1..] == d;
  }

  /** What `IntToString` wrote, read by `ParseSigned`, is the same integer. */
  lemma ParseSignedIntToString(i: int)
    requires |NatToString(if i < 0 then -i else i)| <= MaxStrDigits
    ensures ParseSigned(IntToString(i)) == Some(i)
  {
    if i < 0 {
      var n: nat := -i;
      assert IntToString(i) == "-" + NatToString(n);
      ParseNegToString(n);
    } else {
      assert IntToString(i) == NatToString(i);
      ParseNatToString(i);
    }
  }

  /** Reading back what `IntToString` wrote gives the same integer, for every
      integer of at most 4300 digits (`str()` refuses longer ones). */
  lemma ParseIntToString(i: int)
    requires |NatToString(if i < 0 then -i else i)| <= MaxStrDigits
    ensures ParseInt(IntToString(i)) == Some(i)
  {
    IntToStringStripped(i);
    IntTrimNoEdges(IntToString(i));
    ParseSignedIntToString(i);
  }
}

=== FILE: wrappers.dfy ===
/** Failure-carrying values shared by the other modules. */
module Wrappers {

  /** A value that may be missing: Python's `None` or a present value. */
  datatype Option<+T> = None | Some(value: T)

  /** The outcome of an operation that can raise: a value or the error raised. */
  datatype Result<+R, +E> = Success(value: R) | Failure(error: E)
}
